=== FILE: README.md ===
# Tiled progressive renderer scheduler, in Dafny

A model of the scheduling core of `TiledRenderer` from GLSL-PathTracer.
The renderer refines its image progressively, one tile per tick. A cursor
walks the tile grid in raster order: top row first, left to right. When it
leaves the last tile, one sample pass is complete, so the sample counter
goes up and the two output images swap roles. One half is being written
while the other is shown. When the scene changes (it is "dirty"), the
scheduler resets, clears the accumulation image and shows a low-resolution
preview instead. An external denoiser is run on the shown half whenever a
complete pass exists: first as soon as possible, then at a cadence of
`denoiserFrameCnt × tile count` ticks.

The model is a pure state machine:

- `Grid`: the tile grid, the raster order, the cursor step, viewports.
- `Decimal`: `std::to_string` for the Russian-roulette depth define.
- `ShaderDefines`: building the `#define` lines and splicing them into the
  GLSL source after the `#version` line.
- `Scheduler`: the renderer's fields and its operations, `Init`, `Update`,
  `Render`, `Present`, `GetOutputBuffer` and `GetProgress`, each reduced
  to the choices it makes.
- `Ticks`: what a single call does.
- `Passes`: runs of clean ticks under any sample limit, namely pass
  coverage, the denoise cadence and where the limit stops the run.
- `Frames`: the contents of the textures, per tile, as a frame invariant.
  It shows that the image on screen is never half updated.
- `Arith`: division facts.

Graphics calls are reduced to the image or viewport they select. The
denoiser is reduced to the event of it being invoked. A frame is taken to
be `Update`, then `Render`, then `Present`. The main loop that drives these
calls is not part of this model.

Behaviours of the code that the model keeps, some of them easy to miss:

- The denoise gate runs before the dirty reset. A dirty tick can therefore
  still invoke the denoiser, and the reset then discards the result
  (`Ticks.DirtyTickMayDenoise`).
- `denoised` is set after every denoiser invocation, even if the device
  reports an error.
- After a reset the cursor sits on a sentinel before the first tile. The
  first pass is drawn on ticks 1 to T, for a grid of T tiles, and the
  sample counter reaches 2 on tick T + 1. The comment in `Render`
  (`src/core/TiledRenderer.cpp:369-370`) says a 500 × 500 image in
  250 × 250 tiles is complete "after 4 frames"; counted from the reset,
  the counter moves on tick 5 (`Passes.ScenarioFourTiles`).
- With a bounded limit, the work stops once the counter reaches `maxSpp`,
  that is after `maxSpp - 1` completed passes (`Passes.RunReachesLimit`).
  Any limit other than -1 counts as bounded, so a limit of 0 or below
  means converged from the start. Under a limit of 2 the clean tick that
  would run the denoiser is already converged, so the denoiser never runs
  on a clean tick (`Passes.FirstWrap`). The early return applies only to
  clean ticks, so a later dirty tick still reaches the gate and runs the
  denoiser once before the reset (`Ticks.DirtyTickMayDenoise`).
- With the denoiser off, the denoised image is never chosen: `Present`
  and `GetOutputBuffer` show the output half not being written
  (`Passes.DenoiserOffRun`).
- After a reset, `Present` shows the preview until a pass completes, but
  `GetOutputBuffer` has no preview branch: it reads back the output half
  finished before the reset (`Frames.ReadBackAfterReset`).
- `Init` does not reset `denoised`. The constructor gives `frameCounter` no
  value, so `Scheduler.Construct` takes it as a parameter.

## Model

| member | source | states |
|---|---|---|
| Grid.CeilDiv | src/core/TiledRenderer.cpp:78-79 | the tile count along an axis is the least count whose tiles cover the extent |
| Grid.NumTilesShape | src/core/TiledRenderer.cpp:78-79 | a non-empty target has at least one tile per axis, exactly one where the tile is at least as large as the target |
| Grid.Advance | src/core/TiledRenderer.cpp:503-517 | a cursor step moves right along the row or to the start of the row below; from the sentinel or a grid tile it stays on the grid, and a wrap returns to the first tile |
| Grid.AdvanceIndex | src/core/TiledRenderer.cpp:503-517 | the cursor step lands in the grid on the next raster position, from the sentinel or any tile, and wraps to position 0 exactly when it leaves the last tile |
| Grid.LastTile | src/core/TiledRenderer.cpp:505-513 | the step wraps only from the bottom-right tile, the last in raster order |
| Grid.TileAtRoundTrip | src/core/TiledRenderer.cpp:503-517 | every raster position names a grid tile that maps back to it |
| Grid.RasterIndexRoundTrip | src/core/TiledRenderer.cpp:503-517 | every grid tile is recovered from its raster position |
| Grid.PixelOwner | src/core/TiledRenderer.cpp:378 | each pixel of the target lies in the merge viewport of exactly one grid tile |
| Grid.ViewportInsideGrid | src/core/TiledRenderer.cpp:378 | a tile's merge viewport stays inside the tiled extent, which covers the target |
| Decimal.NatToStringRoundTrip | src/core/TiledRenderer.cpp:107 | decimal digits are non-empty, carry no leading zero and read back as the number |
| Decimal.IntToStringRoundTrip | src/core/TiledRenderer.cpp:107 | the depth text starts with a minus sign exactly for negative values and parses back to the depth |
| ShaderDefines.ScanMaterials | src/core/TiledRenderer.cpp:125-132 | the material scan reports true exactly when some material is not opaque |
| ShaderDefines.PathtraceDefinesEmptyIff | src/core/TiledRenderer.cpp:97-134 | the path-trace define text is empty exactly when no option, light or non-opaque material asks for a switch |
| ShaderDefines.AlphaTestAtMostOnce | src/core/TiledRenderer.cpp:125-132 | `OPT_ALPHA_TEST` appears once if some material is not opaque and never otherwise |
| ShaderDefines.TonemapOnlyBackground | src/core/TiledRenderer.cpp:115-124 | the tone-map shader gets only the two background switches, each exactly when its option is on |
| ShaderDefines.DefineLineShape | src/core/TiledRenderer.cpp:101-129 | each define is one `#define ` line ending in a newline, and only the alpha-test switch yields the alpha-test line |
| ShaderDefines.PathtraceDefinesAreLines | src/core/TiledRenderer.cpp:97-132 | cutting the define text at its newlines gives back exactly the enabled directives |
| ShaderDefines.FindFrom | src/core/TiledRenderer.cpp:136-138 | the search returns the first match at or after the start, or "not found" when there is none |
| ShaderDefines.InsertPos | src/core/TiledRenderer.cpp:136-141 | the insertion point is 0, 1, or just past a newline of the source, and lies past the end only for an empty source |
| ShaderDefines.Splice | src/core/TiledRenderer.cpp:134-159 | the insertion throws out-of-range exactly for an empty source, and otherwise puts the whole define text at one position |
| ShaderDefines.SpliceRoundTrip | src/core/TiledRenderer.cpp:141 | removing the defines at the insertion point gives back the original source |
| ShaderDefines.SpliceAfterVersionLine | src/core/TiledRenderer.cpp:136-141 | with a `#version` line, the defines go right after its newline and the first `#version` is unchanged |
| ShaderDefines.SpliceWithoutVersion | src/core/TiledRenderer.cpp:139-141 | without `#version`, the defines go after the first character |
| ShaderDefines.SpliceVersionWithoutNewline | src/core/TiledRenderer.cpp:136-141 | a `#version` with no newline after it makes `npos + 1` wrap to 0, so the defines go in front |
| Scheduler.Construct | src/core/TiledRenderer.cpp:34-56 | a constructed renderer is uninitialised, has no grid yet, sample counter and write half at 0, frame counter as given, no denoised image, and the tile size of the options |
| Scheduler.Init | src/core/TiledRenderer.cpp:64-159 | no-op when initialised; otherwise the grid, counters and sentinel cursor are set up, the state is valid for a non-empty target, and the tile, preview and tone-map shaders are their sources with the matching define text inserted at the `#version` insert point (unchanged when there is no define), unless a splice throws |
| Scheduler.DenoiseGate | src/core/TiledRenderer.cpp:452-487 | the flag is set exactly when the denoiser is on and a pass is complete; the first such chance always fires, and a later firing needs a frame counter that is a multiple of the cadence |
| Scheduler.Reset | src/core/TiledRenderer.cpp:489-500 | the reset keeps a valid state valid, puts the cursor at raster position -1 so that the next step lands on the first tile without a wrap, and keeps the write half |
| Scheduler.Update | src/core/TiledRenderer.cpp:444-518 | a tick keeps the state valid and the geometry fixed, clears the accumulation image exactly on dirty ticks, returns early without touching anything on a converged uninitialised renderer, and on a clean tick raises the counter by at most one |
| Scheduler.Render | src/core/TiledRenderer.cpp:344-390 | the preview is drawn exactly on dirty ticks of an initialised renderer; the tile pass writes the current half; afterwards the scene is clean |
| Scheduler.Present | src/core/TiledRenderer.cpp:392-414 | the preview is shown exactly while dirty or before a complete pass; otherwise the denoised image is shown exactly when the denoiser is on and has produced one, and in every other initialised case the half not being written is shown; the half being written is never shown |
| Scheduler.GetOutputBuffer | src/core/TiledRenderer.cpp:422-437 | read-back has the target's size, 4 bytes per pixel, and comes from the denoised image exactly when the denoiser is on and has produced one, otherwise from the half not being written |
| Scheduler.GetProgress | src/core/TiledRenderer.cpp:416-420 | progress is 0 without a positive limit, and otherwise is the sample counter times 100 over the limit: between 0 and 100 while the counter is within the limit, 100 exactly at the limit |
| Scheduler.AdvancedValid | src/core/TiledRenderer.cpp:501-517 | a clean step keeps a valid state valid |
| Ticks.CleanTickLaw | src/core/TiledRenderer.cpp:501-536 | a clean tick moves the cursor one raster position; only the wrap adds a sample, flips the write half and returns to the first tile; the frame counter grows by one |
| Ticks.DirtyReset | src/core/TiledRenderer.cpp:489-500 | a dirty tick resets cursor, counters and the denoised flag, keeps the write half, and asks the preview for depth 2 |
| Ticks.DirtyIdempotent | src/core/TiledRenderer.cpp:489-500 | a second dirty tick changes nothing and does not denoise |
| Ticks.DenoiseGateLaw | src/core/TiledRenderer.cpp:452-487 | the denoiser fires exactly when it is on, a pass is complete, and there is no denoised image yet or the frame counter is a multiple of the cadence |
| Ticks.DirtyTickMayDenoise | src/core/TiledRenderer.cpp:452-495 | a dirty tick can still invoke the denoiser, whose result the reset drops |
| Ticks.ConvergedTickIsNoOp | src/core/TiledRenderer.cpp:352-353 | once converged, a clean tick changes nothing and draws nothing |
| Ticks.SmallLimitConverged | src/core/TiledRenderer.cpp:446 | a limit of 1 or below, other than -1, is converged from the start |
| Ticks.SampleCounterStaysBelowLimit | src/core/TiledRenderer.cpp:446-515 | with a positive limit the counter never passes it and progress stays at most 100 |
| Ticks.UpdateThenRender | src/core/TiledRenderer.cpp:366-388 | after a clean tick the tile pass merges inside the tiled extent at the cursor tile, and into a half neither `Present` nor read-back shows |
| Ticks.NeverShowsWriteHalf | src/core/TiledRenderer.cpp:382-410 | the half `Render` writes is never the one presented or read back |
| Ticks.OutputBufferMatchesPresent | src/core/TiledRenderer.cpp:405-434 | read-back chooses the same image as `Present` whenever `Present` does not show the preview |
| Ticks.RenderConsumesDirty | src/core/TiledRenderer.cpp:357-365 | a dirty render draws the preview and clears the dirty flag |
| Ticks.InitIdempotent | src/core/TiledRenderer.cpp:66-67 | a second `Init` changes nothing |
| Ticks.ConstructThenInit | src/core/TiledRenderer.cpp:34-84 | a constructed renderer initialises into a valid state whose grid covers the target |
| Passes.RunLaw | src/core/TiledRenderer.cpp:446-517 | under any sample limit that lets the ticks run, after k clean ticks the cursor is k raster positions on, modulo the tile count; each completed lap adds a sample and flips the write half |
| Passes.LimitAllowsFewer | src/core/TiledRenderer.cpp:446-447 | a limit that lets k ticks run lets every shorter run through |
| Passes.PassCoverage | src/core/TiledRenderer.cpp:446-517 | under no limit or one above the counter, one pass visits every tile exactly once in raster order at a fixed sample count, then wraps to the first tile with one more sample |
| Passes.FirstPassAfterReset | src/core/TiledRenderer.cpp:446-517 | under no limit or one above 1, the first pass after a reset takes ticks 1 to T at one sample without denoising; the counter reaches 2 on tick T + 1, and with the denoiser on the tick after that denoises exactly when the limit is not 2 |
| Passes.FirstWrap | src/core/TiledRenderer.cpp:446-517 | the tick after the first pass is back on the first tile at two samples with no denoised image, and is converged exactly under a limit of 2 |
| Passes.DenoiserOffRun | src/core/TiledRenderer.cpp:404-434 | with the denoiser off, clean ticks never fire it or set the denoised flag, present never shows the denoised image and, from the second sample on, shows the output half not being written, and read-back always comes from that half |
| Passes.ProgressNeverDrops | src/core/TiledRenderer.cpp:416-420 | along clean ticks the sample counter never drops, so the reported progress never drops |
| Passes.ConvergedRunStays | src/core/TiledRenderer.cpp:446-447 | once the limit is reached, any number of further clean ticks leaves the state unchanged |
| Passes.RunReachesLimit | src/core/TiledRenderer.cpp:446-517 | under a limit of 2 or more, a run from a reset completes exactly `maxSpp - 1` passes: the counter reaches the limit on tick `(maxSpp - 1) × T + 1`, on the first tile, and nothing changes afterwards |
| Passes.ScenarioFourTiles | src/core/TiledRenderer.cpp:78-79 | a 500 × 500 target in 250 × 250 tiles is a 2 × 2 grid whose counter reaches 2 on tick 5 |
| Passes.RunShift | src/core/TiledRenderer.cpp:444-518 | k ticks after m ticks are m + k ticks |
| Passes.DenoisedNeedsPass | src/core/TiledRenderer.cpp:446-487 | under no limit or one above 1, no denoised image exists from a reset until the first pass completes |
| Passes.CadenceLaw | src/core/TiledRenderer.cpp:446-487 | once a denoised image exists, and as long as the limit lets the ticks run, the denoiser fires on exactly those clean ticks whose frame counter is a multiple of the cadence |
| Frames.ToneMap | src/core/TiledRenderer.cpp:383-388 | the tone-map pass divides every tile by the same counter, so an accumulation image holding that many samples everywhere gives a complete image |
| Frames.UpdateStore | src/core/TiledRenderer.cpp:452-500 | the denoiser snapshots the half not being written, a dirty tick zeroes the accumulation image, and nothing else changes |
| Frames.RenderStore | src/core/TiledRenderer.cpp:366-388 | a tile pass adds one sample to the cursor tile only and tone-maps the whole accumulation image into the target half, leaving the other half alone; any other pass changes nothing |
| Frames.Frame | src/core/TiledRenderer.cpp:344-414 | a frame keeps the state valid and the textures shaped, and never presents the half it wrote |
| Frames.DirtyFrameEstablishes | src/core/TiledRenderer.cpp:489-500 | a dirty frame clears accumulation, shows the preview, and starts the frame invariant from any textures |
| Frames.ConvergedFrameKeeps | src/core/TiledRenderer.cpp:352-353 | a converged frame leaves state and textures alone |
| Frames.StepFrameKeeps | src/core/TiledRenderer.cpp:366-388 | a frame within a lap adds one sample to the cursor tile, redraws the write half, and keeps the invariant |
| Frames.WrapFrameKeeps | src/core/TiledRenderer.cpp:509-515 | the frame that completes a lap makes the finished write half the shown half, one sample up |
| Frames.FrameKeepsConsistent | src/core/TiledRenderer.cpp:344-518 | every frame keeps the frame invariant |
| Frames.ShownImageComplete | src/core/TiledRenderer.cpp:392-434 | any image presented other than the preview, and any image read back from the second sample on, has every tile at the same positive sample count, divided by that count |
| Frames.ReadBackAfterReset | src/core/TiledRenderer.cpp:392-437 | after a dirty frame, `Present` shows the preview while read-back returns the untouched output half finished before the reset |
| Frames.WriteHalfIsPartial | src/core/TiledRenderer.cpp:382-388 | part-way through a lap, the write half still holds a tile divided by one sample more than it has |

## Left out

- OpenGL state: framebuffers, texture creation and binding, shader compilation and uniform locations. Only the choices these calls encode are modelled.
- Shader loading from disk: the sources are inputs to `Scheduler.Init`. The shader loader is not part of this model.
- The external denoiser: only the fact that it runs is modelled, together with the half it reads. Its pixels and its error message are not.
- Floating-point uniforms: camera, `tileOffset`, `invNumTiles`, `invSampleCounter` as a float, tone-mapping flags and colours, and the preview's pixel ratio.
- Scheduler.Init: the tile count is computed with exact ceiling division rather than a float `ceil`. Tile sizes must be at least 1, whereas the code divides by them unchecked.
- Scheduler.Update: requires an initialised renderer unless the tick returns early at the limit check, because past that check the code dereferences shader objects that only `Init` creates. It also requires a non-zero cadence whenever the gate evaluates the modulus.
- Scheduler.Init: a splice that throws `std::out_of_range` is modelled as an outcome without a state. In the code the throw comes after the grid, counters and flags have been written, so a caller that catches it holds a half-initialised renderer; that state is not modelled.
- Scheduler.Init: a zero-size target is accepted, but the state is promised valid only for a target of at least one pixel on each axis.
- Scheduler.GetProgress: uses exact real division, not single-precision float.
- The `frameCounter` and the cadence product are unbounded integers. 32-bit overflow after about two billion ticks is not modelled.
- `Finish`, the destructor and `GetSampleCount`: resource release and a plain getter.
- The base class's `Init` and `Update`, and the `instancesModified` flag that `Render` clears: not part of this model.
- The console messages printed during initialisation and rendering.

=== FILE: arith.dfy ===
/** Small facts about multiplication, division and remainder on integers that
    the grid and pass lemmas lean on. Dafny's `/` and `%` are Euclidean. The
    divisions of the grid and of the raster order have a positive divisor
    and a non-negative dividend, where Euclidean and C++ truncating division
    agree. The one other use, the denoise cadence's `%`, may see a negative
    divisor, but its result is only compared with 0, which both kinds of
    division decide alike. */
module Arith {

  lemma MulMonoLeft(a: int, b: int, c: int)
    requires a <= b && c >= 0
    ensures a * c <= b * c
  {
    assert b * c - a * c == (b - a) * c;
  }

  /** Division and remainder are the unique quotient/remainder pair. */
  lemma DivModUnique(a: int, b: int, q: int, r: int)
    requires b >= 1 && 0 <= r < b && a == q * b + r
    ensures a / b == q && a % b == r
  {
    var q', r' := a / b, a % b;
    assert a == q' * b + r';
    assert (q - q') * b == r' - r;
    if q > q' {
      MulMonoLeft(1, q - q', b);
      assert false;
    } else if q < q' {
      MulMonoLeft(1, q' - q, b);
      assert false;
    }
  }

  /** Adding one to a non-negative dividend either bumps the remainder or
      carries into the quotient. */
  lemma DivModStep(a: int, b: int)
    requires a >= 0 && b >= 1
    ensures a % b == b - 1 ==> (a + 1) / b == a / b + 1 && (a + 1) % b == 0
    ensures a % b != b - 1 ==> (a + 1) / b == a / b && (a + 1) % b == a % b + 1
  {
    var q, r := a / b, a % b;
    assert a == q * b + r;
    if r == b - 1 {
      DivModUnique(a + 1, b, q + 1, 0);
    } else {
      DivModUnique(a + 1, b, q, r + 1);
    }
  }

  /** A value below `n * b` has quotient below `n`. */
  lemma DivBelow(a: int, b: int, n: int)
    requires 0 <= a < n * b && b >= 1
    ensures 0 <= a / b < n
  {
    var q, r := a / b, a % b;
    assert a == q * b + r;
    if q < 0 {
      MulMonoLeft(q, -1, b);
      assert false;
    }
    if q >= n {
      MulMonoLeft(n, q, b);
      assert false;
    }
  }

  /** Quotients grow with the dividend. */
  lemma DivMono(a: int, b: int, d: int)
    requires 0 <= a <= b && d >= 1
    ensures a / d <= b / d
  {
    var qa, qb := a / d, b / d;
    assert a == qa * d + a % d && b == qb * d + b % d;
    if qa > qb {
      MulMonoLeft(qb + 1, qa, d);
      assert false;
    }
  }

  /** The positions of `laps` complete laps of `count` ticks: the last one
      is still in lap `laps - 1`, the next one starts lap `laps`. */
  lemma LapEnd(laps: int, count: int)
    requires laps >= 1 && count >= 1
    ensures laps * count - 1 >= 0
    ensures (laps * count - 1) / count == laps - 1
    ensures (laps * count) / count == laps && (laps * count) % count == 0
  {
    MulMonoLeft(1, laps, count);
    assert laps * count - 1 == (laps - 1) * count + (count - 1);
    DivModUnique(laps * count - 1, count, laps - 1, count - 1);
    DivModUnique(laps * count, count, laps, 0);
  }
}

=== FILE: decimal.dfy ===
/** Decimal rendering of integers as `std::to_string` produces it (used for
    the Russian-roulette depth define), with a reader that inverts it. */
module Decimal {

  predicate IsDigit(c: char) {
    '0' <= c <= '9'
  }

  function DigitChar(d: int): (c: char)
    requires 0 <= d < 10
    ensures IsDigit(c) && c as int - '0' as int == d
  {
    ('0' as int + d) as char
  }

  /** Shortest decimal digits of a natural number, no leading zero. */
  function NatToString(n: nat): (s: string)
    decreases n
  {
    if n < 10 then [DigitChar(n)] else NatToString(n / 10) + [DigitChar(n % 10)]
  }

  /** `std::to_string(int)`: a minus sign for negative values, then digits. */
  function IntToString(i: int): string {
    if i < 0 then "-" + NatToString(-i) else NatToString(i)
  }

  predicate AllDigits(s: string) {
    forall k :: 0 <= k < |s| ==> IsDigit(s[k])
  }

  /** Value of a string of decimal digits. */
  function DigitsValue(s: string): nat
    requires AllDigits(s)
  {
    if |s| == 0 then 0
    else DigitsValue(s[..|s| - 1]) * 10 + (s[|s| - 1] as int - '0' as int)
  }

  /** Value of an optionally signed decimal numeral. */
  function ParseInt(s: string): int
    requires (|s| > 0 && s[0] == '-' && AllDigits(s[1..])) || AllDigits(s)
  {
    if |s| > 0 && s[0] == '-' then -(DigitsValue(s[1..]) as int) else DigitsValue(s)
  }

  /** Digits are non-empty, carry no leading zero, and read back as `n`. */
  lemma {:induction false} NatToStringRoundTrip(n: nat)
    ensures var s := NatToString(n);
      && |s| >= 1 && AllDigits(s)
      && (s[0] == '0' <==> n == 0)
      && DigitsValue(s) == n
    decreases n
  {
    var s := NatToString(n);
    if n >= 10 {
      NatToStringRoundTrip(n / 10);
      var p := NatToString(n / 10);
      assert s == p + [DigitChar(n % 10)];
      assert s[..|s| - 1] == p;
      assert s[0] == p[0];
    }
  }

  /** Formatting then parsing gives the integer back, and the text starts
      with a minus sign exactly for negative values. */
  lemma IntToStringRoundTrip(i: int)
    ensures var s := IntToString(i);
      && |s| >= 1
      && (s[0] == '-' <==> i < 0)
      && ((|s| > 0 && s[0] == '-' && AllDigits(s[1..])) || AllDigits(s))
      && ParseInt(s) == i
  {
    var s := IntToString(i);
    if i < 0 {
      NatToStringRoundTrip(-i);
      assert s[1..] == NatToString(-i);
    } else {
      NatToStringRoundTrip(i);
    }
  }
}

=== FILE: frames.dfy ===
/** What the textures hold across frames. Each image is reduced to one
    entry per tile (pixels belong to tiles, see `Grid.PixelOwner`): the
    accumulation image holds how many samples the tile has summed, and an
    output texel holds the sum it was tone-mapped from together with the
    sample counter it was divided by. A frame is `Update`, then `Render`,
    then `Present`. The invariant `Consistent` shows that every image
    `Present` or `GetOutputBuffer` can show is complete: all tiles carry
    the same number of samples and are divided by exactly that number. */
module Frames {
  import opened Grid
  import opened Scheduler
  import opened Ticks

  /** A tone-mapped texel: `samples` summed, divided by `scale`. */
  datatype Texel = Texel(samples: int, scale: int)

  /** Accumulation image, the two output halves, and the denoised image. */
  datatype Store = Store(accum: seq<int>, output: seq<seq<Texel>>, denoisedImg: seq<Texel>)

  /** A frame: the state after it, the textures after it, and the image
      `Present` drew. */
  datatype FrameResult = FrameResult(state: State, store: Store, shown: Image)

  /** Every texel is `v` samples divided by `v`. */
  predicate Full(img: seq<Texel>, v: int) {
    forall j :: 0 <= j < |img| ==> img[j] == Texel(v, v)
  }

  /** One entry per tile in every image the passes write. */
  predicate Shaped(s: State, g: Store) {
    && |g.accum| == TileCount(s.numTiles)
    && |g.output| == 2
    && |g.output[0]| == TileCount(s.numTiles)
    && |g.output[1]| == TileCount(s.numTiles)
  }

  /** The tone-mapping pass: the whole accumulation image divided by the
      sample counter. */
  function ToneMap(accum: seq<int>, sampleCounter: int): (out: seq<Texel>)
    ensures |out| == |accum|
    ensures forall j :: 0 <= j < |out| ==> out[j].scale == sampleCounter
    ensures (forall j :: 0 <= j < |accum| ==> accum[j] == sampleCounter) ==> Full(out, sampleCounter)
  {
    seq(|accum|, j requires 0 <= j < |accum| => Texel(accum[j], sampleCounter))
  }

  /** Texture effects of `Update`: the denoiser reads the output half not
      being written, and a dirty tick clears the accumulation image. */
  function UpdateStore(s: State, t: Tick, g: Store): (g': Store)
    requires Shaped(s, g) && (s.currentBuffer == 0 || s.currentBuffer == 1)
    ensures Shaped(s, g') && g'.output == g.output
    ensures t.denoiseFired ==> g'.denoisedImg == g.output[1 - s.currentBuffer]
    ensures !t.denoiseFired ==> g'.denoisedImg == g.denoisedImg
    ensures t.accumCleared ==> forall j :: 0 <= j < |g'.accum| ==> g'.accum[j] == 0
    ensures !t.accumCleared ==> g'.accum == g.accum
  {
    var g1 := if t.denoiseFired then g.(denoisedImg := g.output[1 - s.currentBuffer]) else g;
    if t.accumCleared then g1.(accum := seq(|g.accum|, _ => 0)) else g1
  }

  /** Texture effects of `Render`: a tile pass adds one sample to the
      cursor tile and tone-maps the whole accumulation image into the
      target half. */
  function RenderStore(s: State, pass: Pass, g: Store): (g': Store)
    requires Shaped(s, g)
    requires pass.TilePass? ==> InGrid(s.tile, s.numTiles) && 0 <= pass.target < 2
    ensures Shaped(s, g')
    ensures g'.denoisedImg == g.denoisedImg
    ensures !pass.TilePass? ==> g' == g
    ensures pass.TilePass? ==>
      var i := RasterIndex(s.tile, s.numTiles);
      && 0 <= i < |g.accum|
      && g'.accum[i] == g.accum[i] + 1
      && (forall j :: 0 <= j < |g.accum| && j != i ==> g'.accum[j] == g.accum[j])
      && g'.output[pass.target] == ToneMap(g'.accum, s.sampleCounter)
      && g'.output[1 - pass.target] == g.output[1 - pass.target]
  {
    match pass
    case TilePass(_, _, target, _) =>
      RasterIndexInRange(s.tile, s.numTiles);
      var i := RasterIndex(s.tile, s.numTiles);
      var accum := g.accum[i := g.accum[i] + 1];
      g.(accum := accum, output := g.output[target := ToneMap(accum, s.sampleCounter)])
    case _ => g
  }

  /** The tile pass of a frame is drawn on a grid tile into a real half. */
  lemma TilePassOnGrid(s: State, dirty: bool, opts: RenderOptions)
    requires Valid(s) && CadenceDefined(s, dirty, opts)
    ensures var t := Update(s, dirty, opts).state;
      var p := Render(t, dirty, opts).pass;
      p.TilePass? ==> InGrid(t.tile, t.numTiles) && 0 <= p.target < 2
  {
    if !dirty && !Converged(s, false, opts) {
      CleanTickLaw(s, opts);
    }
  }

  /** One frame: `Update`, `Render`, then `Present` with the dirty flag
      as `Render` left it. */
  function Frame(s: State, g: Store, dirty: bool, opts: RenderOptions): (f: FrameResult)
    requires Valid(s) && Shaped(s, g) && CadenceDefined(s, dirty, opts)
    ensures Valid(f.state) && Shaped(f.state, f.store)
    ensures f.shown != TileOutput(f.state.currentBuffer)
  {
    var t := Update(s, dirty, opts);
    var g1 := UpdateStore(s, t, g);
    var r := Render(t.state, dirty, opts);
    TilePassOnGrid(s, dirty, opts);
    FrameResult(t.state, RenderStore(t.state, r.pass, g1), Present(t.state, r.dirty, opts))
  }

  /** How many tiles, in raster order, already carry the current sample:
      all up to the cursor once it has been drawn, which happens unless
      the limit is reached. */
  function Layer(s: State, opts: RenderOptions): int {
    var c := RasterIndex(s.tile, s.numTiles);
    if !Converged(s, false, opts) then c + 1 else if c < 0 then 0 else c
  }

  /** The frame invariant. Tiles before `Layer` hold `sampleCounter`
      samples and the rest one fewer; once a tile is drawn in this lap the
      write half is the tone-mapped accumulation image; from the second
      sample on the half not being written is a complete image of
      `sampleCounter - 1` samples; and a denoised image is a complete
      image of fewer samples than the counter. */
  predicate Consistent(s: State, g: Store, opts: RenderOptions) {
    && Valid(s)
    && Shaped(s, g)
    && (forall j :: 0 <= j < |g.accum| ==>
          g.accum[j] == (if j < Layer(s, opts) then s.sampleCounter else s.sampleCounter - 1))
    && (Layer(s, opts) >= 1 ==> g.output[s.currentBuffer] == ToneMap(g.accum, s.sampleCounter))
    && (s.sampleCounter >= 2 ==> Full(g.output[1 - s.currentBuffer], s.sampleCounter - 1))
    && (s.denoised ==>
          && |g.denoisedImg| == TileCount(s.numTiles) && |g.denoisedImg| >= 1
          && Full(g.denoisedImg, g.denoisedImg[0].samples)
          && 1 <= g.denoisedImg[0].samples < s.sampleCounter)
  }

  /** The texels of an image `Present` or `GetOutputBuffer` chose; the
      low-resolution preview is not part of this store. */
  function Shown(g: Store, img: Image): seq<Texel>
    requires |g.output| == 2
  {
    match img
    case DenoisedImage => g.denoisedImg
    case TileOutput(h) => if 0 <= h < 2 then g.output[h] else []
    case _ => []
  }

  /** A dirty frame starts the invariant from any valid state and any
      textures of the right shape, and shows the preview. */
  lemma DirtyFrameEstablishes(s: State, g: Store, opts: RenderOptions)
    requires Valid(s) && Shaped(s, g) && CadenceDefined(s, true, opts)
    ensures var f := Frame(s, g, true, opts);
      && Consistent(f.state, f.store, opts)
      && f.shown == LowResPreview
      && f.state.sampleCounter == 1
      && forall j :: 0 <= j < |f.store.accum| ==> f.store.accum[j] == 0
  {
    DirtyReset(s, opts);
    var f := Frame(s, g, true, opts);
    assert RasterIndex(f.state.tile, f.state.numTiles) == -1;
  }

  /** A frame past the sample limit changes neither state nor textures. */
  lemma ConvergedFrameKeeps(s: State, g: Store, opts: RenderOptions)
    requires Consistent(s, g, opts) && Converged(s, false, opts)
    ensures var f := Frame(s, g, false, opts);
      f.state == s && f.store == g && Consistent(f.state, f.store, opts)
  {
  }

  /** A clean frame that stays within the lap: the cursor moves on, its
      tile gets the current sample, the write half is redrawn. */
  lemma StepFrameKeeps(s: State, g: Store, opts: RenderOptions)
    requires Consistent(s, g, opts) && !Converged(s, false, opts) && CadenceDefined(s, false, opts)
    requires RasterIndex(s.tile, s.numTiles) != TileCount(s.numTiles) - 1
    ensures var f := Frame(s, g, false, opts);
      && Consistent(f.state, f.store, opts)
      && f.state.sampleCounter == s.sampleCounter
      && f.store.output[1 - s.currentBuffer] == g.output[1 - s.currentBuffer]
  {
    CleanTickLaw(s, opts);
    var c := RasterIndex(s.tile, s.numTiles);
    var t := Update(s, false, opts);
    var g1 := UpdateStore(s, t, g);
    var f := Frame(s, g, false, opts);
    assert f.store == RenderStore(t.state, Render(t.state, false, opts).pass, g1);
    assert RasterIndex(t.state.tile, s.numTiles) == c + 1 == Layer(s, opts);
    assert Layer(t.state, opts) == c + 2;
    forall j | 0 <= j < |f.store.accum|
      ensures f.store.accum[j] == (if j < c + 2 then s.sampleCounter else s.sampleCounter - 1)
    {
    }
  }

  /** The clean frame that completes a lap: the finished write half
      becomes the shown half, one sample up, and the next lap starts on
      the first tile unless the limit is reached. */
  lemma WrapFrameKeeps(s: State, g: Store, opts: RenderOptions)
    requires Consistent(s, g, opts) && !Converged(s, false, opts) && CadenceDefined(s, false, opts)
    requires RasterIndex(s.tile, s.numTiles) == TileCount(s.numTiles) - 1
    ensures var f := Frame(s, g, false, opts);
      && Consistent(f.state, f.store, opts)
      && f.state.sampleCounter == s.sampleCounter + 1
      && f.store.output[1 - f.state.currentBuffer] == g.output[s.currentBuffer]
  {
    CleanTickLaw(s, opts);
    var t := Update(s, false, opts);
    var g1 := UpdateStore(s, t, g);
    var f := Frame(s, g, false, opts);
    assert f.store == RenderStore(t.state, Render(t.state, false, opts).pass, g1);
    assert Layer(s, opts) == TileCount(s.numTiles);
    assert Full(g.output[s.currentBuffer], s.sampleCounter);
    if Converged(t.state, false, opts) {
      assert Layer(t.state, opts) == 0;
    } else {
      assert Layer(t.state, opts) == 1;
      forall j | 0 <= j < |f.store.accum|
        ensures f.store.accum[j] == (if j < 1 then t.state.sampleCounter else t.state.sampleCounter - 1)
      {
      }
    }
  }

  /** Every frame keeps the invariant. */
  lemma FrameKeepsConsistent(s: State, g: Store, dirty: bool, opts: RenderOptions)
    requires Consistent(s, g, opts) && CadenceDefined(s, dirty, opts)
    ensures var f := Frame(s, g, dirty, opts); Consistent(f.state, f.store, opts)
  {
    if dirty {
      DirtyFrameEstablishes(s, g, opts);
    } else if Converged(s, false, opts) {
      ConvergedFrameKeeps(s, g, opts);
    } else if RasterIndex(s.tile, s.numTiles) == TileCount(s.numTiles) - 1 {
      WrapFrameKeeps(s, g, opts);
    } else {
      StepFrameKeeps(s, g, opts);
    }
  }

  /** Whatever `Present` or `GetOutputBuffer` shows other than the preview
      is a complete image: one entry per tile, every tile with the same
      positive number of samples, divided by exactly that number, and
      fewer samples than the counter says the scheduler is working on. */
  lemma ShownImageComplete(s: State, g: Store, dirty: bool, opts: RenderOptions)
    requires Consistent(s, g, opts)
    ensures var img := Present(s, dirty, opts);
      img != LowResPreview ==>
        var px := Shown(g, img);
        && |px| == TileCount(s.numTiles) && |px| >= 1
        && Full(px, px[0].samples)
        && 1 <= px[0].samples < s.sampleCounter
    ensures var px := Shown(g, GetOutputBuffer(s, opts).source);
      s.sampleCounter >= 2 ==>
        && |px| == TileCount(s.numTiles) && |px| >= 1
        && Full(px, px[0].samples)
        && 1 <= px[0].samples < s.sampleCounter
  {
    ValidGrid(s);
  }

  /** After a reset, read-back is stale. `Present` shows the preview, but
      `GetOutputBuffer` has no preview branch: it returns the output half
      finished before the reset, which the dirty frame leaves untouched and
      which no longer matches the cleared accumulation image. This lasts
      until the first pass after the reset completes. */
  lemma ReadBackAfterReset(s: State, g: Store, opts: RenderOptions)
    requires Valid(s) && Shaped(s, g) && CadenceDefined(s, true, opts)
    ensures var f := Frame(s, g, true, opts);
      && f.shown == LowResPreview
      && GetOutputBuffer(f.state, opts).source == TileOutput(1 - s.currentBuffer)
      && f.store.output == g.output
      && Shown(f.store, GetOutputBuffer(f.state, opts).source) == g.output[1 - s.currentBuffer]
  {
    DirtyReset(s, opts);
  }

  /** Why the write half is never shown: part-way through a lap, its last
      tile still holds one sample fewer than it is divided by. */
  lemma WriteHalfIsPartial(s: State, g: Store, opts: RenderOptions)
    requires Consistent(s, g, opts)
    requires 1 <= Layer(s, opts) < TileCount(s.numTiles)
    ensures var last := g.output[s.currentBuffer][TileCount(s.numTiles) - 1];
      last.samples == last.scale - 1
  {
  }
}

=== FILE: grid.dfy ===
/** The tile grid of the tiled renderer: how many tiles cover the render
    target, the raster order in which the tile cursor walks them, and the
    viewport each tile occupies in the accumulation image. */
module Grid {
  import opened Arith

  /** An integer pair, standing for the source's `iVec2`. */
  datatype Vec2 = Vec2(x: int, y: int)

  /** An OpenGL viewport: lower-left corner and extent, in pixels. */
  datatype Rect = Rect(x: int, y: int, width: int, height: int)

  /** Number of tiles of size `size` needed to cover `extent` pixels: the
      smallest count whose tiles reach past the extent (ceiling division). */
  function CeilDiv(extent: nat, size: int): (n: nat)
    requires size >= 1
    ensures n * size >= extent
    ensures n == 0 || (n - 1) * size < extent
  {
    var q, r := (extent + size - 1) / size, (extent + size - 1) % size;
    assert extent + size - 1 == q * size + r;
    assert (q - 1) * size == q * size - size;
    q
  }

  /** Tile counts per axis for a render target and a tile size. */
  function NumTiles(renderSize: Vec2, tileSize: Vec2): Vec2
    requires renderSize.x >= 0 && renderSize.y >= 0
    requires tileSize.x >= 1 && tileSize.y >= 1
  {
    Vec2(CeilDiv(renderSize.x, tileSize.x), CeilDiv(renderSize.y, tileSize.y))
  }

  /** Total number of tiles, i.e. ticks per sample pass. */
  function TileCount(n: Vec2): int {
    n.x * n.y
  }

  predicate InGrid(t: Vec2, n: Vec2) {
    0 <= t.x < n.x && 0 <= t.y < n.y
  }

  /** The cursor value meaning "about to start a new pass". */
  function Sentinel(n: Vec2): Vec2 {
    Vec2(-1, n.y - 1)
  }

  /** The first tile of a pass: leftmost tile of the top row. */
  function First(n: Vec2): Vec2 {
    Vec2(0, n.y - 1)
  }

  /** Position of a tile in the raster order: rows from `y = n.y - 1` down to
      `y = 0`, and `x` increasing inside a row. The sentinel sits at -1. */
  function RasterIndex(t: Vec2, n: Vec2): int {
    (n.y - 1 - t.y) * n.x + t.x
  }

  /** The tile at a raster position; the inverse of `RasterIndex`. */
  function TileAt(i: int, n: Vec2): Vec2
    requires n.x >= 1
  {
    Vec2(i % n.x, n.y - 1 - i / n.x)
  }

  /** Outcome of one cursor step: the new cursor and whether the grid was
      exhausted (the wrap that ends a sample pass). */
  datatype Step = Step(tile: Vec2, wrapped: bool)

  /** One cursor step of the scheduler: `x` up; at the end of a row `x`
      returns to 0 and `y` goes down; below the last row the cursor returns
      to the first tile and the step reports a wrap. */
  function Advance(t: Vec2, n: Vec2): (st: Step)
    ensures st.wrapped ==> st.tile == First(n)
    ensures !st.wrapped ==> st.tile == Vec2(t.x + 1, t.y) || st.tile == Vec2(0, t.y - 1)
    ensures n.x >= 1 && n.y >= 1 && (InGrid(t, n) || t == Sentinel(n)) ==> InGrid(st.tile, n)
  {
    if t.x + 1 >= n.x then
      if t.y - 1 < 0 then Step(Vec2(0, n.y - 1), true)
      else Step(Vec2(0, t.y - 1), false)
    else Step(Vec2(t.x + 1, t.y), false)
  }

  /** Where tile `t` lands in the accumulation image. */
  function Viewport(t: Vec2, tileSize: Vec2): Rect {
    Rect(tileSize.x * t.x, tileSize.y * t.y, tileSize.x, tileSize.y)
  }

  predicate InRect(p: Vec2, r: Rect) {
    r.x <= p.x < r.x + r.width && r.y <= p.y < r.y + r.height
  }

  // ---------------------------------------------------------------------
  // Lemmas
  // ---------------------------------------------------------------------

  /** Tile counts are positive for a non-empty target, and a tile at least
      as large as the target gives a single tile along that axis. */
  lemma NumTilesShape(renderSize: Vec2, tileSize: Vec2)
    requires renderSize.x >= 0 && renderSize.y >= 0
    requires tileSize.x >= 1 && tileSize.y >= 1
    ensures var n := NumTiles(renderSize, tileSize);
      && (n.x >= 1 <==> renderSize.x >= 1)
      && (n.y >= 1 <==> renderSize.y >= 1)
      && (1 <= renderSize.x <= tileSize.x ==> n.x == 1)
      && (1 <= renderSize.y <= tileSize.y ==> n.y == 1)
  {
    var n := NumTiles(renderSize, tileSize);
    if 1 <= renderSize.x <= tileSize.x && n.x >= 2 {
      MulMonoLeft(1, n.x - 1, tileSize.x);
    }
    if 1 <= renderSize.y <= tileSize.y && n.y >= 2 {
      MulMonoLeft(1, n.y - 1, tileSize.y);
    }
  }

  /** The raster index is a bijection between the grid and `[0, TileCount)`. */
  lemma RasterIndexInRange(t: Vec2, n: Vec2)
    requires InGrid(t, n)
    ensures 0 <= RasterIndex(t, n) < TileCount(n)
  {
    MulMonoLeft(0, n.y - 1 - t.y, n.x);
    MulMonoLeft(n.y - 1 - t.y, n.y - 1, n.x);
  }

  lemma TileAtRoundTrip(i: int, n: Vec2)
    requires n.x >= 1 && 0 <= i < TileCount(n)
    ensures InGrid(TileAt(i, n), n)
    ensures RasterIndex(TileAt(i, n), n) == i
  {
    DivBelow(i, n.x, n.y);
    assert i == (i / n.x) * n.x + i % n.x;
  }

  lemma RasterIndexRoundTrip(t: Vec2, n: Vec2)
    requires InGrid(t, n)
    ensures TileAt(RasterIndex(t, n), n) == t
  {
    DivModUnique(RasterIndex(t, n), n.x, n.y - 1 - t.y, t.x);
  }

  /** Distinct grid tiles have distinct raster positions. */
  lemma RasterIndexInjective(t: Vec2, u: Vec2, n: Vec2)
    requires InGrid(t, n) && InGrid(u, n)
    requires RasterIndex(t, n) == RasterIndex(u, n)
    ensures t == u
  {
    RasterIndexRoundTrip(t, n);
    RasterIndexRoundTrip(u, n);
  }

  /** The last tile of the raster order is the bottom-right one. */
  lemma LastTile(t: Vec2, n: Vec2)
    requires InGrid(t, n)
    ensures RasterIndex(t, n) == TileCount(n) - 1 <==> t.x == n.x - 1 && t.y == 0
  {
    if t.y >= 1 {
      MulMonoLeft(n.y - 1 - t.y + 1, n.y - 1, n.x);
    }
  }

  /** The cursor step walks the raster order: from the sentinel or any grid
      tile it lands in the grid, on the next raster position, and it wraps
      back to position 0 exactly when it leaves the last tile. */
  lemma {:induction false} AdvanceIndex(t: Vec2, n: Vec2)
    requires n.x >= 1 && n.y >= 1
    requires InGrid(t, n) || t == Sentinel(n)
    ensures var st := Advance(t, n);
      && InGrid(st.tile, n)
      && (st.wrapped <==> RasterIndex(t, n) == TileCount(n) - 1)
      && RasterIndex(st.tile, n) == (if st.wrapped then 0 else RasterIndex(t, n) + 1)
  {
    if InGrid(t, n) {
      LastTile(t, n);
      var st := Advance(t, n);
      if t.x + 1 >= n.x && t.y >= 1 {
        assert RasterIndex(st.tile, n) == (n.y - 1 - t.y) * n.x + n.x;
      }
    } else {
      MulMonoLeft(1, n.y, n.x);
    }
  }

  /** The pixel `p` of the render target belongs to exactly one grid tile:
      the one at `(p.x / tileWidth, p.y / tileHeight)`. */
  lemma {:induction false} PixelOwner(p: Vec2, renderSize: Vec2, tileSize: Vec2)
    requires tileSize.x >= 1 && tileSize.y >= 1
    requires 0 <= p.x < renderSize.x && 0 <= p.y < renderSize.y
    ensures var n := NumTiles(renderSize, tileSize);
      var owner := Vec2(p.x / tileSize.x, p.y / tileSize.y);
      && InGrid(owner, n)
      && InRect(p, Viewport(owner, tileSize))
      && forall t :: InGrid(t, n) && InRect(p, Viewport(t, tileSize)) ==> t == owner
  {
    var n := NumTiles(renderSize, tileSize);
    var owner := Vec2(p.x / tileSize.x, p.y / tileSize.y);
    DivBelow(p.x, tileSize.x, n.x);
    DivBelow(p.y, tileSize.y, n.y);
    forall t | InGrid(t, n) && InRect(p, Viewport(t, tileSize))
      ensures t == owner
    {
      DivModUnique(p.x, tileSize.x, t.x, p.x - tileSize.x * t.x);
      DivModUnique(p.y, tileSize.y, t.y, p.y - tileSize.y * t.y);
    }
  }

  /** Every grid tile's viewport lies inside the tiled extent
      `numTiles * tileSize`, which covers the render target. */
  lemma {:induction false} ViewportInsideGrid(t: Vec2, renderSize: Vec2, tileSize: Vec2)
    requires renderSize.x >= 0 && renderSize.y >= 0
    requires tileSize.x >= 1 && tileSize.y >= 1
    requires InGrid(t, NumTiles(renderSize, tileSize))
    ensures var n := NumTiles(renderSize, tileSize);
      var v := Viewport(t, tileSize);
      && 0 <= v.x && v.x + v.width <= n.x * tileSize.x
      && 0 <= v.y && v.y + v.height <= n.y * tileSize.y
      && renderSize.x <= n.x * tileSize.x && renderSize.y <= n.y * tileSize.y
  {
    var n := NumTiles(renderSize, tileSize);
    MulMonoLeft(0, t.x, tileSize.x);
    MulMonoLeft(0, t.y, tileSize.y);
    MulMonoLeft(t.x + 1, n.x, tileSize.x);
    MulMonoLeft(t.y + 1, n.y, tileSize.y);
  }
}

=== FILE: passes.dfy ===
/** Runs of clean ticks: where the cursor is after `k` ticks, that one
    sample pass visits every tile exactly once, the cadence at which the
    denoiser fires, and where a sample limit stops the run. A limit only
    matters through the early return of `Update`, so every lemma about
    moving ticks asks just that the limit lies beyond them. */
module Passes {
  import opened Arith
  import opened Grid
  import opened Scheduler
  import opened Ticks

  /** Rendering from a valid state with a usable denoise cadence; any
      sample limit. */
  predicate Steady(s: State, opts: RenderOptions) {
    && Valid(s)
    && (opts.enableDenoiser ==> opts.denoiserFrameCnt != 0)
  }

  lemma SteadyCadence(s: State, opts: RenderOptions)
    requires Steady(s, opts)
    ensures CadenceDefined(s, false, opts)
    ensures opts.enableDenoiser ==> Cadence(s, opts) != 0
  {
    ValidGrid(s);
    if opts.enableDenoiser {
      var c := s.numTiles.x * s.numTiles.y;
      if opts.denoiserFrameCnt > 0 {
        MulMonoLeft(1, opts.denoiserFrameCnt, c);
      } else {
        MulMonoLeft(opts.denoiserFrameCnt, -1, c);
      }
    }
  }

  /** The state after `k` clean ticks. */
  function Run(s: State, opts: RenderOptions, k: nat): (r: State)
    requires Steady(s, opts)
    ensures Steady(r, opts)
    ensures r.numTiles == s.numTiles
    decreases k
  {
    if k == 0 then s
    else
      var prev := Run(s, opts, k - 1);
      SteadyCadence(prev, opts);
      Update(prev, false, opts).state
  }

  /** The arithmetic of one more tick on raster position `a`, lap count
      `a / count`: the cursor position, sample counter and write half
      after a step that wraps exactly at the last position are those of
      position `a + 1`. */
  lemma StepArith(a: int, count: int, sc: int, cb: int, i1: int, sc1: int, cb1: int)
    requires a >= 0 && count >= 1
    requires var wrap := a % count == count - 1;
      && i1 == (if wrap then 0 else a % count + 1)
      && sc1 == sc + a / count + (if wrap then 1 else 0)
      && cb1 == (if wrap then 1 - (cb + a / count) % 2 else (cb + a / count) % 2)
    ensures i1 == (a + 1) % count
    ensures sc1 == sc + (a + 1) / count
    ensures cb1 == (cb + (a + 1) / count) % 2
  {
    DivModStep(a, count);
    var q := a / count;
    assert (cb + q + 1) % 2 == 1 - (cb + q) % 2;
  }

  /** The sample counter `k` clean ticks on from `s` when no limit stops
      them: one more for every lap completed. The sentinel (raster
      position -1) belongs to the lap that follows it. */
  function CounterAt(s: State, k: nat): (c: int)
    requires Valid(s)
    ensures c >= s.sampleCounter
  {
    var a := RasterIndex(s.tile, s.numTiles) + k;
    ValidGrid(s);
    if a < 0 then s.sampleCounter else s.sampleCounter + a / TileCount(s.numTiles)
  }

  /** The sample limit lets the first `k` clean ticks from `s` run: the
      last of them starts below it. */
  predicate LimitAllows(s: State, opts: RenderOptions, k: nat)
    requires Valid(s)
  {
    k == 0 || opts.maxSpp == -1 || CounterAt(s, k - 1) < opts.maxSpp
  }

  /** A limit that lets `k` ticks run lets fewer run. */
  lemma LimitAllowsFewer(s: State, opts: RenderOptions, j: nat, k: nat)
    requires Valid(s) && j <= k && LimitAllows(s, opts, k)
    ensures LimitAllows(s, opts, j)
  {
    if j >= 1 && opts.maxSpp != -1 {
      var i := RasterIndex(s.tile, s.numTiles);
      ValidGrid(s);
      if i + j - 1 >= 0 {
        DivMono(i + j - 1, i + k - 1, TileCount(s.numTiles));
      }
    }
  }

  /** Inside the lap the run starts in, the limit lets the ticks run as
      soon as it lets the first one run. */
  lemma LimitAllowsLap(s: State, opts: RenderOptions, k: nat)
    requires Valid(s) && !Converged(s, false, opts)
    requires RasterIndex(s.tile, s.numTiles) + k - 1 < TileCount(s.numTiles)
    ensures LimitAllows(s, opts, k)
    ensures k >= 1 ==> CounterAt(s, k - 1) == s.sampleCounter
  {
    var a := RasterIndex(s.tile, s.numTiles) + k - 1;
    ValidGrid(s);
    if k >= 1 && a >= 0 {
      DivModUnique(a, TileCount(s.numTiles), 0, a);
    }
  }

  /** Where `k` clean ticks leave the run: the cursor `k` raster positions
      further on, modulo the tile count; one sample added and the write
      half flipped for every completed lap of the grid; the frame counter
      `k` higher. */
  predicate RunLawAt(s: State, opts: RenderOptions, k: nat)
    requires Steady(s, opts)
  {
    LawAt(s, k, Run(s, opts, k))
  }

  /** `r` is where `k` clean ticks from `s` should be, in the sense of
      `RunLawAt`. */
  predicate LawAt(s: State, k: nat, r: State) {
    var n := s.numTiles;
    var a := RasterIndex(s.tile, n) + k;
    && TileCount(n) >= 1
    && InGrid(r.tile, n)
    && RasterIndex(r.tile, n) == a % TileCount(n)
    && r.sampleCounter == s.sampleCounter + a / TileCount(n)
    && r.currentBuffer == (s.currentBuffer + a / TileCount(n)) % 2
    && r.frameCounter == s.frameCounter + k
  }

  /** After `k` clean ticks the cursor is `k` raster positions further on,
      modulo the tile count; every completed lap of the grid added one to
      the sample counter and flipped the write half; the frame counter grew
      by `k`. This holds as long as the sample limit lets the ticks run.
      From the sentinel (raster position -1) it needs `k >= 1`. */
  lemma {:induction false} RunLaw(s: State, opts: RenderOptions, k: nat)
    requires Steady(s, opts) && LimitAllows(s, opts, k)
    requires RasterIndex(s.tile, s.numTiles) + k >= 0
    ensures RunLawAt(s, opts, k)
    ensures Run(s, opts, k).sampleCounter == CounterAt(s, k)
    decreases k
  {
    var i := RasterIndex(s.tile, s.numTiles);
    if k == 0 {
      RunLawStart(s, opts);
    } else if i + k - 1 >= 0 {
      LimitAllowsFewer(s, opts, k - 1, k);
      RunLaw(s, opts, k - 1);
      var prev := Run(s, opts, k - 1);
      assert !Converged(prev, false, opts) by {
        ValidGrid(s);
        StepAllowed(s, opts, k, prev);
      }
      RunTick(s, opts, k);
      LawStep(s, k, prev, Run(s, opts, k));
    } else {
      CursorIndex(s);
      RunLawFirstTick(s, opts);
    }
  }

  /** `r` is one clean tick on from `prev` on grid `n`, as `CleanTickLaw`
      describes it. */
  predicate OneTick(n: Vec2, prev: State, r: State) {
    var i := RasterIndex(prev.tile, n);
    var wrap := i == TileCount(n) - 1;
    && InGrid(r.tile, n)
    && RasterIndex(r.tile, n) == (if wrap then 0 else i + 1)
    && r.sampleCounter == prev.sampleCounter + (if wrap then 1 else 0)
    && r.currentBuffer == (if wrap then 1 - prev.currentBuffer else prev.currentBuffer)
    && r.frameCounter == prev.frameCounter + 1
  }

  /** Tick `k` of a run, when the limit does not stop it. */
  lemma RunTick(s: State, opts: RenderOptions, k: nat)
    requires Steady(s, opts) && k >= 1 && !Converged(Run(s, opts, k - 1), false, opts)
    ensures OneTick(s.numTiles, Run(s, opts, k - 1), Run(s, opts, k))
  {
    var prev := Run(s, opts, k - 1);
    SteadyCadence(prev, opts);
    CleanTickLaw(prev, opts);
  }

  /** The state `k` ticks on is below the limit when the limit lets tick
      `k + 1` run. */
  lemma RunBelowLimit(s: State, opts: RenderOptions, k: nat)
    requires Steady(s, opts) && RasterIndex(s.tile, s.numTiles) + k >= 0
    requires LimitAllows(s, opts, k + 1)
    ensures !Converged(Run(s, opts, k), false, opts)
  {
    LimitAllowsFewer(s, opts, k, k + 1);
    RunLaw(s, opts, k);
  }

  /** The induction step of `RunLaw`: a state `r` one clean tick on from
      `prev`, which is `k - 1` ticks on from `s`, is `k` ticks on. */
  lemma LawStep(s: State, k: nat, prev: State, r: State)
    requires k >= 1 && RasterIndex(s.tile, s.numTiles) + k - 1 >= 0
    requires LawAt(s, k - 1, prev) && OneTick(s.numTiles, prev, r)
    ensures LawAt(s, k, r)
  {
    var n := s.numTiles;
    var a := RasterIndex(s.tile, n) + k - 1;
    StepArith(a, TileCount(n), s.sampleCounter, s.currentBuffer,
              RasterIndex(r.tile, n), r.sampleCounter, r.currentBuffer);
  }

  /** A valid cursor sits at raster position -1 (the sentinel) or on the
      grid. */
  lemma CursorIndex(s: State)
    requires Valid(s)
    ensures RasterIndex(s.tile, s.numTiles) >= -1
    ensures RasterIndex(s.tile, s.numTiles) == -1 <==> s.tile == Sentinel(s.numTiles)
  {
    if InGrid(s.tile, s.numTiles) {
      RasterIndexInRange(s.tile, s.numTiles);
    }
  }

  /** The tick from position `k - 1` is not stopped by the limit when the
      run has the lap's counter there. */
  lemma StepAllowed(s: State, opts: RenderOptions, k: nat, prev: State)
    requires Valid(s) && k >= 1 && LimitAllows(s, opts, k) && TileCount(s.numTiles) >= 1
    requires RasterIndex(s.tile, s.numTiles) + k - 1 >= 0
    requires prev.sampleCounter == s.sampleCounter + (RasterIndex(s.tile, s.numTiles) + k - 1) / TileCount(s.numTiles)
    ensures !Converged(prev, false, opts)
  {
  }

  /** One tick from the sentinel lands on raster position 0 in lap 0. */
  lemma RunLawFirstTick(s: State, opts: RenderOptions)
    requires Steady(s, opts) && RasterIndex(s.tile, s.numTiles) == -1
    requires !Converged(s, false, opts)
    ensures RunLawAt(s, opts, 1)
    ensures Run(s, opts, 1).tile == First(s.numTiles)
  {
    var n := s.numTiles;
    ValidGrid(s);
    if InGrid(s.tile, n) {
      RasterIndexInRange(s.tile, n);
      assert false;
    }
    assert Run(s, opts, 0) == s;
    SteadyCadence(s, opts);
    CleanTickLaw(s, opts);
    DivModUnique(0, TileCount(n), 0, 0);
    assert InGrid(First(n), n) && RasterIndex(First(n), n) == 0;
    RasterIndexInjective(Run(s, opts, 1).tile, First(n), n);
  }

  /** Zero ticks: a valid cursor with a non-negative raster position is a
      grid tile, at its own position, in lap 0. */
  lemma RunLawStart(s: State, opts: RenderOptions)
    requires Steady(s, opts) && RasterIndex(s.tile, s.numTiles) >= 0
    ensures RunLawAt(s, opts, 0)
  {
    var n := s.numTiles;
    ValidGrid(s);
    assert s.tile != Sentinel(n) && Run(s, opts, 0) == s;
    RasterIndexInRange(s.tile, n);
    DivModUnique(RasterIndex(s.tile, n), TileCount(n), 0, RasterIndex(s.tile, n));
  }

  /** Tick `j` of a pass that starts on the first tile is at raster
      position `j`, in the same lap. */
  lemma PassPosition(s: State, opts: RenderOptions, j: nat)
    requires Steady(s, opts) && s.tile == First(s.numTiles) && !Converged(s, false, opts)
    requires j < TileCount(s.numTiles)
    ensures var r := Run(s, opts, j);
      && InGrid(r.tile, s.numTiles)
      && RasterIndex(r.tile, s.numTiles) == j
      && r.sampleCounter == s.sampleCounter
      && r.currentBuffer == s.currentBuffer
  {
    ValidGrid(s);
    assert RasterIndex(s.tile, s.numTiles) == 0;
    LimitAllowsLap(s, opts, j);
    RunLaw(s, opts, j);
    DivModUnique(j, TileCount(s.numTiles), 0, j);
  }

  /** The tick after a pass wraps back to the first tile. */
  lemma PassWrap(s: State, opts: RenderOptions)
    requires Steady(s, opts) && s.tile == First(s.numTiles) && !Converged(s, false, opts)
    ensures var r := Run(s, opts, TileCount(s.numTiles));
      && r.tile == First(s.numTiles)
      && r.sampleCounter == s.sampleCounter + 1
      && r.currentBuffer == 1 - s.currentBuffer
  {
    ValidGrid(s);
    var n := s.numTiles;
    var count := TileCount(n);
    assert RasterIndex(s.tile, n) == 0;
    LimitAllowsLap(s, opts, count);
    RunLaw(s, opts, count);
    DivModUnique(count, count, 1, 0);
    assert InGrid(First(n), n) && RasterIndex(First(n), n) == 0;
    RasterIndexInjective(Run(s, opts, count).tile, First(n), n);
  }

  /** The ticks of a pass visit raster positions 0, 1, ... in order. */
  lemma PassInOrder(s: State, opts: RenderOptions)
    requires Steady(s, opts) && s.tile == First(s.numTiles) && !Converged(s, false, opts)
    ensures forall j :: 0 <= j < TileCount(s.numTiles) ==>
      && InGrid(Run(s, opts, j).tile, s.numTiles)
      && RasterIndex(Run(s, opts, j).tile, s.numTiles) == j
      && Run(s, opts, j).sampleCounter == s.sampleCounter
      && Run(s, opts, j).currentBuffer == s.currentBuffer
  {
    forall j | 0 <= j < TileCount(s.numTiles)
      ensures InGrid(Run(s, opts, j).tile, s.numTiles)
      ensures RasterIndex(Run(s, opts, j).tile, s.numTiles) == j
      ensures Run(s, opts, j).sampleCounter == s.sampleCounter
      ensures Run(s, opts, j).currentBuffer == s.currentBuffer
    {
      PassPosition(s, opts, j);
    }
  }

  /** Every grid tile is visited during a pass: tile `t` is the cursor
      after as many ticks as its raster position. */
  lemma PassCovers(s: State, opts: RenderOptions)
    requires Steady(s, opts) && s.tile == First(s.numTiles) && !Converged(s, false, opts)
    ensures forall t :: InGrid(t, s.numTiles) ==>
      && 0 <= RasterIndex(t, s.numTiles) < TileCount(s.numTiles)
      && Run(s, opts, RasterIndex(t, s.numTiles)).tile == t
  {
    forall t | InGrid(t, s.numTiles)
      ensures 0 <= RasterIndex(t, s.numTiles) < TileCount(s.numTiles)
      ensures Run(s, opts, RasterIndex(t, s.numTiles)).tile == t
    {
      var n := s.numTiles;
      var j := RasterIndex(t, n);
      RasterIndexInRange(t, n);
      PassPosition(s, opts, j);
      RasterIndexInjective(t, Run(s, opts, j).tile, n);
    }
  }

  /** No tile is visited twice during a pass. */
  lemma PassDistinct(s: State, opts: RenderOptions)
    requires Steady(s, opts) && s.tile == First(s.numTiles) && !Converged(s, false, opts)
    ensures forall j1, j2 ::
      (0 <= j1 < TileCount(s.numTiles) && 0 <= j2 < TileCount(s.numTiles)
       && Run(s, opts, j1).tile == Run(s, opts, j2).tile) ==> j1 == j2
  {
    forall j1, j2 | 0 <= j1 < TileCount(s.numTiles) && 0 <= j2 < TileCount(s.numTiles)
      && Run(s, opts, j1).tile == Run(s, opts, j2).tile
      ensures j1 == j2
    {
      PassPosition(s, opts, j1);
      PassPosition(s, opts, j2);
    }
  }

  /** One sample pass: from the first tile of a pass, the cursor positions
      of the next `TileCount` ticks (the starting one included) are every
      grid tile exactly once, in raster order, with the sample counter and
      write half unchanged; the tick after them wraps back to the first
      tile, adds one sample and flips the write half. */
  lemma PassCoverage(s: State, opts: RenderOptions)
    requires Steady(s, opts) && s.tile == First(s.numTiles) && !Converged(s, false, opts)
    ensures var n := s.numTiles;
      var count := TileCount(n);
      && (forall j :: 0 <= j < count ==>
            && InGrid(Run(s, opts, j).tile, n)
            && RasterIndex(Run(s, opts, j).tile, n) == j
            && Run(s, opts, j).sampleCounter == s.sampleCounter
            && Run(s, opts, j).currentBuffer == s.currentBuffer)
      && (forall t :: InGrid(t, n) ==>
            && 0 <= RasterIndex(t, n) < count
            && Run(s, opts, RasterIndex(t, n)).tile == t)
      && (forall j1, j2 :: 0 <= j1 < count && 0 <= j2 < count && Run(s, opts, j1).tile == Run(s, opts, j2).tile
            ==> j1 == j2)
      && Run(s, opts, count).tile == First(n)
      && Run(s, opts, count).sampleCounter == s.sampleCounter + 1
      && Run(s, opts, count).currentBuffer == 1 - s.currentBuffer
  {
    PassInOrder(s, opts);
    PassCovers(s, opts);
    PassDistinct(s, opts);
    PassWrap(s, opts);
  }

  /** The pass after a reset, under any limit that lets it start (no
      limit, or one above 1): the first tick moves the sentinel to the
      first tile; the first `TileCount` ticks render with one sample and
      never run the denoiser, and the wrap comes on the tick after them.
      With the denoiser on, the tick after the wrap runs it, except under
      a limit of 2, which the wrap has just reached. */
  lemma FirstPassAfterReset(s: State, opts: RenderOptions)
    requires Steady(s, opts) && s.tile == Sentinel(s.numTiles) && !Converged(s, false, opts)
    ensures var count := TileCount(s.numTiles);
      && Run(s, opts, 1).tile == First(s.numTiles)
      && (forall j :: 0 <= j <= count ==>
            Run(s, opts, j).sampleCounter == 1 && !Update(Run(s, opts, j), false, opts).denoiseFired)
      && Run(s, opts, count + 1).sampleCounter == 2
      && Run(s, opts, count + 1).tile == First(s.numTiles)
      && (opts.enableDenoiser ==>
            (Update(Run(s, opts, count + 1), false, opts).denoiseFired <==> opts.maxSpp != 2))
  {
    CursorIndex(s);
    RunLawFirstTick(s, opts);
    forall j | 0 <= j <= TileCount(s.numTiles)
      ensures Run(s, opts, j).sampleCounter == 1
      ensures !Update(Run(s, opts, j), false, opts).denoiseFired
    {
      FirstPassTick(s, opts, j);
    }
    FirstWrap(s, opts);
  }

  /** Ticks 0 to `TileCount` after a reset: one sample, no denoising. */
  lemma FirstPassTick(s: State, opts: RenderOptions, j: nat)
    requires Steady(s, opts) && s.tile == Sentinel(s.numTiles) && !Converged(s, false, opts)
    requires j <= TileCount(s.numTiles)
    ensures Run(s, opts, j).sampleCounter == 1
    ensures CadenceDefined(Run(s, opts, j), false, opts)
    ensures !Update(Run(s, opts, j), false, opts).denoiseFired
  {
    ValidGrid(s);
    var r := Run(s, opts, j);
    if j == 0 {
      assert r == s;
    } else {
      CursorIndex(s);
      LimitAllowsLap(s, opts, j);
      RunLaw(s, opts, j);
      DivModUnique(j - 1, TileCount(s.numTiles), 0, j - 1);
    }
    SteadyCadence(r, opts);
  }

  /** The tick after the first pass: back on the first tile with two
      samples; the following tick is converged exactly under a limit of 2,
      and otherwise denoises when the denoiser is on. */
  lemma FirstWrap(s: State, opts: RenderOptions)
    requires Steady(s, opts) && s.tile == Sentinel(s.numTiles) && !Converged(s, false, opts)
    ensures var wrapped := Run(s, opts, TileCount(s.numTiles) + 1);
      && wrapped.sampleCounter == 2
      && wrapped.tile == First(s.numTiles)
      && !wrapped.denoised
      && CadenceDefined(wrapped, false, opts)
      && (Converged(wrapped, false, opts) <==> opts.maxSpp == 2)
      && (opts.enableDenoiser ==> (Update(wrapped, false, opts).denoiseFired <==> opts.maxSpp != 2))
  {
    var count := TileCount(s.numTiles);
    CursorIndex(s);
    RunLawFirstTick(s, opts);
    var first := Run(s, opts, 1);
    assert first.sampleCounter == 1 && first.tile == First(s.numTiles);
    PassWrap(first, opts);
    RunShift(s, opts, 1, count);
    var wrapped := Run(s, opts, count + 1);
    DenoisedNeedsPass(s, opts, count);
    SteadyCadence(wrapped, opts);
  }

  /** A 500 x 500 target in 250 x 250 tiles: a 2 x 2 grid, whose first
      pass after a reset is drawn on ticks 1 to 4 and whose sample counter
      reaches 2 on tick 5. */
  lemma ScenarioFourTiles(s: State, opts: RenderOptions)
    requires Steady(s, opts) && s.tile == Sentinel(s.numTiles) && !Converged(s, false, opts)
    requires s.renderSize == Vec2(500, 500) && s.tileSize == Vec2(250, 250)
    ensures s.numTiles == Vec2(2, 2) && TileCount(s.numTiles) == 4
    ensures forall j :: 0 <= j <= 4 ==> Run(s, opts, j).sampleCounter == 1
    ensures Run(s, opts, 5).sampleCounter == 2
  {
    assert NumTiles(Vec2(500, 500), Vec2(250, 250)) == Vec2(2, 2);
    FirstPassAfterReset(s, opts);
  }

  /** Ticks compose: `k` ticks after `m` ticks are `m + k` ticks. */
  lemma {:induction false} RunShift(s: State, opts: RenderOptions, m: nat, k: nat)
    requires Steady(s, opts)
    ensures Run(Run(s, opts, m), opts, k) == Run(s, opts, m + k)
    decreases k
  {
    if k > 0 {
      RunShift(s, opts, m, k - 1);
    }
  }

  /** From a reset, the denoised flag stays clear through the first pass
      and the wrap tick that ends it. */
  lemma DenoisedNeedsPass(s: State, opts: RenderOptions, k: nat)
    requires Steady(s, opts) && s.tile == Sentinel(s.numTiles) && !Converged(s, false, opts)
    requires k <= TileCount(s.numTiles)
    ensures !Run(s, opts, k + 1).denoised
  {
    var prev := Run(s, opts, k);
    FirstPassTick(s, opts, k);
    assert !Converged(prev, false, opts);
  }

  /** The cadence law: once a denoised image exists, and as long as the
      sample limit lets the ticks run, the denoiser stays on and fires on
      exactly those clean ticks whose incoming frame counter is a multiple
      of `denoiserFrameCnt * TileCount`. */
  lemma {:induction false} CadenceLaw(s: State, opts: RenderOptions, k: nat)
    requires Steady(s, opts) && opts.enableDenoiser && s.sampleCounter > 1 && s.denoised
    requires Cadence(s, opts) != 0 && LimitAllows(s, opts, k + 1)
    ensures var r := Run(s, opts, k);
      && r.denoised && r.sampleCounter > 1
      && Cadence(r, opts) == Cadence(s, opts)
      && r.frameCounter == s.frameCounter + k
      && (Update(r, false, opts).denoiseFired <==> (s.frameCounter + k) % Cadence(s, opts) == 0)
    decreases k
  {
    var r := Run(s, opts, k);
    CursorIndex(s);
    if k > 0 {
      LimitAllowsFewer(s, opts, k, k + 1);
      CadenceLaw(s, opts, k - 1);
      var prev := Run(s, opts, k - 1);
      RunBelowLimit(s, opts, k - 1);
      SteadyCadence(prev, opts);
      CleanTickLaw(prev, opts);
    }
    RunBelowLimit(s, opts, k);
    SteadyCadence(r, opts);
  }

  /** Once the limit is reached, further clean ticks change nothing. */
  lemma {:induction false} ConvergedRunStays(s: State, opts: RenderOptions, k: nat)
    requires Steady(s, opts) && Converged(s, false, opts)
    ensures Run(s, opts, k) == s
    decreases k
  {
    if k > 0 {
      ConvergedRunStays(s, opts, k - 1);
    }
  }

  /** With the denoiser off, clean ticks never fire it and never set the
      denoised flag, so neither `Present` nor `GetOutputBuffer` ever
      chooses the denoised image; the raw output half is shown instead. */
  lemma {:induction false} DenoiserOffRun(s: State, opts: RenderOptions, k: nat)
    requires Steady(s, opts) && !opts.enableDenoiser
    ensures Run(s, opts, k).denoised ==> s.denoised
    ensures !Update(Run(s, opts, k), false, opts).denoiseFired
    ensures Present(Run(s, opts, k), false, opts) != DenoisedImage
    ensures Run(s, opts, k).sampleCounter != 1 ==>
      Present(Run(s, opts, k), false, opts) == TileOutput(1 - Run(s, opts, k).currentBuffer)
    ensures GetOutputBuffer(Run(s, opts, k), opts).source == TileOutput(1 - Run(s, opts, k).currentBuffer)
    decreases k
  {
    if k > 0 {
      DenoiserOffRun(s, opts, k - 1);
    }
  }

  /** Clean ticks never lower the sample counter, hence never the
      reported progress. */
  lemma {:induction false} ProgressNeverDrops(s: State, opts: RenderOptions, k: nat, j: nat)
    requires Steady(s, opts)
    ensures Run(s, opts, k).sampleCounter <= Run(s, opts, k + j).sampleCounter
    ensures GetProgress(Run(s, opts, k), opts) <= GetProgress(Run(s, opts, k + j), opts)
    decreases j
  {
    if j > 0 {
      ProgressNeverDrops(s, opts, k, j - 1);
      var prev := Run(s, opts, k + j - 1);
      SteadyCadence(prev, opts);
      assert Run(s, opts, k + j) == Update(prev, false, opts).state;
    }
    ProgressMonotone(Run(s, opts, k), Run(s, opts, k + j), opts);
  }

  /** Progress is monotone in the sample counter. */
  lemma ProgressMonotone(a: State, b: State, opts: RenderOptions)
    requires a.sampleCounter <= b.sampleCounter
    ensures GetProgress(a, opts) <= GetProgress(b, opts)
  {
    if opts.maxSpp > 0 {
      assert (a.sampleCounter as real) * 100.0 <= (b.sampleCounter as real) * 100.0;
    }
  }

  /** Under a limit of 2 or more, a run from a reset completes exactly
      `maxSpp - 1` passes: the counter is `maxSpp - 1` until the tick
      `(maxSpp - 1) * TileCount + 1`, which wraps to the first tile and
      reaches the limit, and no later tick changes anything. */
  lemma RunReachesLimit(s: State, opts: RenderOptions, m: nat)
    requires Steady(s, opts) && s.tile == Sentinel(s.numTiles) && opts.maxSpp >= 2
    ensures var k := (opts.maxSpp - 1) * TileCount(s.numTiles) + 1;
      && Run(s, opts, k - 1).sampleCounter == opts.maxSpp - 1
      && Run(s, opts, k).sampleCounter == opts.maxSpp
      && Run(s, opts, k).tile == First(s.numTiles)
      && Converged(Run(s, opts, k), false, opts)
      && Run(s, opts, k + m) == Run(s, opts, k)
  {
    var n := s.numTiles;
    var count := TileCount(n);
    var k := (opts.maxSpp - 1) * count + 1;
    ValidGrid(s);
    CursorIndex(s);
    LapEnd(opts.maxSpp - 1, count);
    assert LimitAllows(s, opts, k) by {
      assert CounterAt(s, k - 1) == 1 + (k - 2) / count;
    }
    LimitAllowsFewer(s, opts, k - 1, k);
    RunLaw(s, opts, k - 1);
    RunLaw(s, opts, k);
    var r := Run(s, opts, k);
    assert InGrid(First(n), n) && RasterIndex(First(n), n) == 0;
    RasterIndexInjective(r.tile, First(n), n);
    RunShift(s, opts, k, m);
    ConvergedRunStays(r, opts, m);
  }
}

=== FILE: scheduler.dfy ===
/** The progressive tile scheduler of `TiledRenderer` as a pure state
    machine: initialisation, the per-tick `Update` (convergence gate,
    denoise gate, dirty reset, cursor advance), the passes `Render` issues,
    and which image `Present` and `GetOutputBuffer` choose. Graphics calls
    are reduced to the choices they encode (which image, which viewport),
    and the external denoiser to a "denoise fired" event. */
module Scheduler {
  import opened Arith
  import opened Grid
  import opened ShaderDefines

  /** The render options the scheduler reads. `maxSpp == -1` means no
      sample limit. */
  datatype RenderOptions = RenderOptions(
    tileWidth: int,
    tileHeight: int,
    maxDepth: int,
    maxSpp: int,
    enableDenoiser: bool,
    denoiserFrameCnt: int,
    useEnvMap: bool,
    enableRR: bool,
    rrDepth: int,
    useUniformLight: bool,
    openglNormalMap: bool,
    hideEmitters: bool,
    enableBackground: bool,
    transparentBackground: bool)

  /** What initialisation needs to know about the scene. */
  datatype SceneInfo = SceneInfo(hdrLoaded: bool, lightCount: nat, materials: seq<AlphaMode>)

  /** The scheduler's own fields. `tileSize` is captured from the options
      at construction; `renderSize` comes from the base renderer. */
  datatype State = State(
    initialized: bool,
    renderSize: Vec2,
    tileSize: Vec2,
    numTiles: Vec2,
    tile: Vec2,
    sampleCounter: int,
    frameCounter: int,
    currentBuffer: int,
    denoised: bool)

  /** Shader texts as loaded from disk (loading itself is not modelled). */
  datatype ShaderSources = ShaderSources(tile: string, preview: string, output: string, tonemap: string)

  datatype InitResult =
    | AlreadyInitialized
    | Ready(state: State, shaders: ShaderSources)
    | SpliceOutOfRange   // `std::string::insert` threw `std::out_of_range`

  /** Uniforms the tick hands to the passes; `Kept` when the tick returned
      early and set none. */
  datatype Uniforms =
    | Kept
    | Uniforms(tileMaxDepth: int, previewMaxDepth: int, frameNum: int, tile: Vec2)

  /** One `Update`: the new state, whether the denoiser was invoked, whether
      the accumulation image was cleared, and the uniforms set. */
  datatype Tick = Tick(state: State, denoiseFired: bool, accumCleared: bool, uniforms: Uniforms)

  /** The passes one `Render` call draws. A tile pass traces into the
      tile-sized working image, merges it into the accumulation image at
      `accumViewport`, and tone-maps the whole accumulation image into
      output half `target`. */
  datatype Pass =
    | NoPass
    | PreviewPass
    | TilePass(traceViewport: Rect, accumViewport: Rect, target: int, outputViewport: Rect)

  /** `Render` consumes the dirty flag; `dirty` is its value afterwards. */
  datatype RenderOutcome = RenderOutcome(dirty: bool, pass: Pass)

  /** The image a draw or read-back takes its pixels from. */
  datatype Image = NoImage | LowResPreview | DenoisedImage | TileOutput(half: int)

  /** `GetOutputBuffer`: size, byte count of the RGBA8 buffer, and source. */
  datatype OutputBuffer = OutputBuffer(width: int, height: int, byteCount: int, source: Image)

  /** The freshly constructed renderer. `frameCounter` has no initialiser
      in the constructor, so its value is a parameter. */
  function Construct(opts: RenderOptions, renderSize: Vec2, frameCounter: int): (s: State)
    ensures !s.initialized && !s.denoised
    ensures s.sampleCounter == 0 && s.currentBuffer == 0 && s.frameCounter == frameCounter
    ensures s.tileSize == Vec2(opts.tileWidth, opts.tileHeight) && s.renderSize == renderSize
    ensures s.numTiles == Vec2(0, 0) && TileCount(s.numTiles) == 0
    ensures !Valid(s)
  {
    State(false, renderSize, Vec2(opts.tileWidth, opts.tileHeight), Vec2(0, 0), Vec2(0, 0),
          0, frameCounter, 0, false)
  }

  /** The well-formed states of an initialised scheduler. */
  predicate Valid(s: State) {
    && s.initialized
    && s.tileSize.x >= 1 && s.tileSize.y >= 1
    && s.renderSize.x >= 1 && s.renderSize.y >= 1
    && s.numTiles == NumTiles(s.renderSize, s.tileSize)
    && (s.currentBuffer == 0 || s.currentBuffer == 1)
    && s.sampleCounter >= 1 && s.frameCounter >= 1
    && (InGrid(s.tile, s.numTiles) || s.tile == Sentinel(s.numTiles))
    && (s.tile == Sentinel(s.numTiles) ==> s.sampleCounter == 1)
  }

  /** A valid state has a non-empty grid. */
  lemma ValidGrid(s: State)
    requires Valid(s)
    ensures s.numTiles.x >= 1 && s.numTiles.y >= 1 && TileCount(s.numTiles) >= 1
  {
    NumTilesShape(s.renderSize, s.tileSize);
    MulMonoLeft(1, s.numTiles.x, s.numTiles.y);
  }

  /** The state edits initialisation makes, before the shaders. */
  function InitState(s: State): State
    requires s.renderSize.x >= 0 && s.renderSize.y >= 0
    requires s.tileSize.x >= 1 && s.tileSize.y >= 1
  {
    var n := NumTiles(s.renderSize, s.tileSize);
    s.(initialized := true, sampleCounter := 1, currentBuffer := 0, frameCounter := 1,
       numTiles := n, tile := Sentinel(n))
  }

  function Inputs(opts: RenderOptions, scene: SceneInfo): DefineInputs {
    DefineInputs(opts.useEnvMap, scene.hdrLoaded, scene.lightCount, opts.enableRR, opts.rrDepth,
                 opts.useUniformLight, opts.openglNormalMap, opts.hideEmitters,
                 opts.enableBackground, opts.transparentBackground, scene.materials)
  }

  /** `Init`: a no-op when already initialised; otherwise sets up the tile
      grid, counters and cursor, and splices the defines into the tile and
      preview shaders (path-trace defines) and the tone-map shader. */
  function Init(s: State, opts: RenderOptions, scene: SceneInfo, src: ShaderSources): (r: InitResult)
    requires !s.initialized ==> s.renderSize.x >= 0 && s.renderSize.y >= 0
    requires !s.initialized ==> s.tileSize.x >= 1 && s.tileSize.y >= 1
    ensures r.AlreadyInitialized? <==> s.initialized
    ensures r.SpliceOutOfRange? <==>
      && !s.initialized
      && ((|PathtraceDefines(Inputs(opts, scene))| > 0 && (|src.tile| == 0 || |src.preview| == 0))
          || (|TonemapDefines(Inputs(opts, scene))| > 0 && |src.tonemap| == 0))
    ensures r.Ready? ==>
      && r.state.initialized
      && r.state.numTiles == NumTiles(s.renderSize, s.tileSize)
      && r.state.tile == Sentinel(r.state.numTiles)
      && r.state.sampleCounter == 1 && r.state.frameCounter == 1 && r.state.currentBuffer == 0
      && r.state.denoised == s.denoised
      && r.state.renderSize == s.renderSize && r.state.tileSize == s.tileSize
    ensures r.Ready? && s.renderSize.x >= 1 && s.renderSize.y >= 1 ==> Valid(r.state)
    ensures r.Ready? ==>
      && |r.shaders.tile| == |src.tile| + |PathtraceDefines(Inputs(opts, scene))|
      && |r.shaders.preview| == |src.preview| + |PathtraceDefines(Inputs(opts, scene))|
      && |r.shaders.tonemap| == |src.tonemap| + |TonemapDefines(Inputs(opts, scene))|
      && r.shaders.output == src.output
    ensures r.Ready? ==>
      && SplicedAt(src.tile, PathtraceDefines(Inputs(opts, scene)), r.shaders.tile)
      && SplicedAt(src.preview, PathtraceDefines(Inputs(opts, scene)), r.shaders.preview)
      && SplicedAt(src.tonemap, TonemapDefines(Inputs(opts, scene)), r.shaders.tonemap)
  {
    if s.initialized then AlreadyInitialized
    else
      var st := InitState(s);
      NumTilesShape(s.renderSize, s.tileSize);
      var inputs := Inputs(opts, scene);
      var pathtrace := PathtraceDefines(inputs);
      var tonemap := TonemapDefines(inputs);
      var a := SpliceIfAny(src.tile, pathtrace);
      var b := SpliceIfAny(src.preview, pathtrace);
      var c := SpliceIfAny(src.tonemap, tonemap);
      if a.OutOfRange? || b.OutOfRange? || c.OutOfRange? then SpliceOutOfRange
      else Ready(st, ShaderSources(a.text, b.text, src.output, c.text))
  }

  // ---------------------------------------------------------------------
  // Update
  // ---------------------------------------------------------------------

  /** The early return shared by `Update` and `Render`: a clean tick once
      the sample limit is reached. Any limit other than -1 counts, so 0 or
      a negative limit means "already converged". */
  predicate Converged(s: State, dirty: bool, opts: RenderOptions) {
    !dirty && opts.maxSpp != -1 && s.sampleCounter >= opts.maxSpp
  }

  /** Denoise cadence in ticks: the configured frame count scaled by the
      number of tiles, i.e. by the ticks of one sample pass. */
  function Cadence(s: State, opts: RenderOptions): int {
    opts.denoiserFrameCnt * (s.numTiles.x * s.numTiles.y)
  }

  /** The gate evaluates `frameCounter % Cadence` only when the denoiser is
      on, a full pass exists and a denoised image is already there; then
      the divisor must not be zero. */
  predicate CadenceDefined(s: State, dirty: bool, opts: RenderOptions) {
    (!Converged(s, dirty, opts) && opts.enableDenoiser && s.sampleCounter > 1 && s.denoised)
    ==> Cadence(s, opts) != 0
  }

  datatype Gate = Gate(fire: bool, denoised: bool)

  /** The denoise gate: fire on the first chance after a complete pass and
      then every `Cadence` frames. The flag is set after firing whatever
      the device reports, and cleared whenever the denoiser is off or no
      pass is complete. */
  function DenoiseGate(s: State, opts: RenderOptions): (g: Gate)
    requires opts.enableDenoiser && s.sampleCounter > 1 && s.denoised ==> Cadence(s, opts) != 0
    ensures g.fire ==> g.denoised
    ensures g.denoised <==> opts.enableDenoiser && s.sampleCounter > 1
    ensures g.denoised && !s.denoised ==> g.fire
    ensures g.fire && s.denoised ==> s.frameCounter % Cadence(s, opts) == 0
  {
    if opts.enableDenoiser && s.sampleCounter > 1 then
      if !s.denoised || s.frameCounter % Cadence(s, opts) == 0 then Gate(true, true)
      else Gate(false, s.denoised)
    else Gate(false, false)
  }

  /** The hard reset of a dirty tick: cursor to the sentinel, counters to 1,
      denoised image dropped. The double-buffer index is left alone. */
  function Reset(s: State): (r: State)
    ensures Valid(s) ==> Valid(r)
    ensures RasterIndex(r.tile, r.numTiles) == -1
    ensures r.numTiles.x >= 1 ==> Advance(r.tile, r.numTiles) == Step(First(r.numTiles), false)
    ensures r.currentBuffer == s.currentBuffer && r.numTiles == s.numTiles
  {
    s.(tile := Sentinel(s.numTiles), sampleCounter := 1, denoised := false, frameCounter := 1)
  }

  /** The cursor and counter update of a clean tick. */
  function Advanced(s: State): State {
    var st := Advance(s.tile, s.numTiles);
    s.(frameCounter := s.frameCounter + 1,
       tile := st.tile,
       sampleCounter := if st.wrapped then s.sampleCounter + 1 else s.sampleCounter,
       currentBuffer := if st.wrapped then 1 - s.currentBuffer else s.currentBuffer)
  }

  /** A clean step keeps a valid state valid. */
  lemma AdvancedValid(s: State)
    ensures Valid(s) ==> Valid(Advanced(s))
  {
    if Valid(s) {
      AdvanceIndex(s.tile, s.numTiles);
    }
  }

  /** `Update`: the dirty flag is an input; clearing it is `Render`'s job.
      Past the early return the source dereferences its shader objects, so
      a tick that does not return early needs `Init`. */
  function Update(s: State, dirty: bool, opts: RenderOptions): (t: Tick)
    requires s.initialized || Converged(s, dirty, opts)
    requires CadenceDefined(s, dirty, opts)
    ensures Valid(s) ==> Valid(t.state)
    ensures !s.initialized ==> t == Tick(s, false, false, Kept)
    ensures t.state.initialized == s.initialized && t.state.numTiles == s.numTiles
    ensures !dirty ==> s.sampleCounter <= t.state.sampleCounter <= s.sampleCounter + 1
    ensures t.state.renderSize == s.renderSize && t.state.tileSize == s.tileSize
    ensures t.accumCleared <==> dirty
  {
    if Converged(s, dirty, opts) then Tick(s, false, false, Kept)
    else
      var g := DenoiseGate(s, opts);
      var next := if dirty then Reset(s) else Advanced(s.(denoised := g.denoised));
      AdvancedValid(s.(denoised := g.denoised));
      Tick(next, g.fire, dirty,
           Uniforms(opts.maxDepth, if dirty then 2 else opts.maxDepth, next.frameCounter, next.tile))
  }

  // ---------------------------------------------------------------------
  // Render, Present, GetOutputBuffer, GetProgress
  // ---------------------------------------------------------------------

  /** `Render`: nothing before `Init` or once converged; a low-resolution
      preview (which consumes the dirty flag) on a dirty tick; otherwise
      one tile pass writing into output half `currentBuffer`. */
  function Render(s: State, dirty: bool, opts: RenderOptions): (r: RenderOutcome)
    ensures s.initialized ==> !r.dirty
    ensures r.pass.TilePass? ==> !dirty && r.pass.target == s.currentBuffer
    ensures r.pass.PreviewPass? <==> s.initialized && dirty
  {
    if !s.initialized then RenderOutcome(dirty, NoPass)
    else if Converged(s, dirty, opts) then RenderOutcome(dirty, NoPass)
    else if dirty then RenderOutcome(false, PreviewPass)
    else RenderOutcome(dirty, TilePass(Rect(0, 0, s.tileSize.x, s.tileSize.y),
                                       Viewport(s.tile, s.tileSize),
                                       s.currentBuffer,
                                       Rect(0, 0, s.renderSize.x, s.renderSize.y)))
  }

  /** `Present`: the preview while dirty or before the first complete pass,
      else the denoised image when there is one, else the output half not
      being written. */
  function Present(s: State, dirty: bool, opts: RenderOptions): (img: Image)
    ensures (s.currentBuffer == 0 || s.currentBuffer == 1) ==> img != TileOutput(s.currentBuffer)
    ensures img.TileOutput? && (s.currentBuffer == 0 || s.currentBuffer == 1) ==> img.half == 0 || img.half == 1
    ensures img == LowResPreview <==> s.initialized && (dirty || s.sampleCounter == 1)
    ensures img == DenoisedImage <==>
      s.initialized && !dirty && s.sampleCounter != 1 && opts.enableDenoiser && s.denoised
    ensures s.initialized && img != LowResPreview && img != DenoisedImage ==> img == TileOutput(1 - s.currentBuffer)
  {
    if !s.initialized then NoImage
    else if dirty || s.sampleCounter == 1 then LowResPreview
    else if opts.enableDenoiser && s.denoised then DenoisedImage
    else TileOutput(1 - s.currentBuffer)
  }

  /** `GetOutputBuffer`: the same choice as `Present` without the preview. */
  function GetOutputBuffer(s: State, opts: RenderOptions): (b: OutputBuffer)
    ensures b.source == DenoisedImage || b.source == TileOutput(1 - s.currentBuffer)
    ensures b.source == DenoisedImage <==> opts.enableDenoiser && s.denoised
    ensures (s.currentBuffer == 0 || s.currentBuffer == 1) ==> b.source != TileOutput(s.currentBuffer)
    ensures b.width == s.renderSize.x && b.height == s.renderSize.y
    ensures b.byteCount == 4 * b.width * b.height
  {
    OutputBuffer(s.renderSize.x, s.renderSize.y, s.renderSize.x * s.renderSize.y * 4,
                 if opts.enableDenoiser && s.denoised then DenoisedImage
                 else TileOutput(1 - s.currentBuffer))
  }

  /** `GetProgress`, in percent; 0 when there is no positive limit. */
  function GetProgress(s: State, opts: RenderOptions): (p: real)
    ensures opts.maxSpp <= 0 ==> p == 0.0
    ensures opts.maxSpp > 0 && 0 <= s.sampleCounter <= opts.maxSpp ==> 0.0 <= p <= 100.0
    ensures opts.maxSpp > 0 ==> (p == 100.0 <==> s.sampleCounter == opts.maxSpp)
    ensures opts.maxSpp > 0 ==> p * (opts.maxSpp as real) == (s.sampleCounter as real) * 100.0
  {
    if opts.maxSpp <= 0 then 0.0
    else
      PercentOf(s.sampleCounter, opts.maxSpp);
      (s.sampleCounter as real) * 100.0 / (opts.maxSpp as real)
  }

  /** Percentages of a positive whole: within [0, 100] for a part within
      the whole, and 100 exactly for the whole itself. */
  lemma PercentOf(part: int, whole: int)
    requires whole > 0
    ensures var p := (part as real) * 100.0 / (whole as real);
      && (0 <= part <= whole ==> 0.0 <= p <= 100.0)
      && (p == 100.0 <==> part == whole)
  {
    var w := whole as real;
    var p := (part as real) * 100.0 / w;
    assert p * w == (part as real) * 100.0;
    if p == 100.0 {
      assert (part as real) * 100.0 == 100.0 * w;
    }
  }
}

=== FILE: shader_defines.dfy ===
/** Building the preprocessor defines that switch shader features on, and
    splicing them into GLSL source right after the `#version` line, as the
    tiled renderer's initialisation does. Strings are sequences of `char`;
    positions and lengths are unbounded naturals, with the one `size_t`
    wrap-around of the source (`npos + 1 == 0`) written out. */
module ShaderDefines {
  import opened Decimal

  /** How a material treats alpha; only `Opaque` matters here. */
  datatype AlphaMode = Opaque | Blend | Mask

  /** The render options and scene facts the define builder consults. */
  datatype DefineInputs = DefineInputs(
    useEnvMap: bool,
    hdrLoaded: bool,          // the scene holds HDR environment data
    lightCount: nat,
    enableRR: bool,
    rrDepth: int,
    useUniformLight: bool,
    openglNormalMap: bool,
    hideEmitters: bool,
    enableBackground: bool,
    transparentBackground: bool,
    materials: seq<AlphaMode>)

  /** A feature switch: each becomes one `#define` line. */
  datatype Switch =
    | EnvMap | Lights | RR | RRDepth(depth: int) | UniformLight | OpenglNormalMap
    | HideEmitters | Background | TransparentBackground | AlphaTest

  /** The macro name a switch defines (with its value, for the depth). */
  function Name(sw: Switch): string {
    match sw
    case EnvMap => "OPT_ENVMAP"
    case Lights => "OPT_LIGHTS"
    case RR => "OPT_RR"
    case RRDepth(d) => "OPT_RR_DEPTH " + IntToString(d)
    case UniformLight => "OPT_UNIFORM_LIGHT"
    case OpenglNormalMap => "OPT_OPENGL_NORMALMAP"
    case HideEmitters => "OPT_HIDE_EMITTERS"
    case Background => "OPT_BACKGROUND"
    case TransparentBackground => "OPT_TRANSPARENT_BACKGROUND"
    case AlphaTest => "OPT_ALPHA_TEST"
  }

  function DefineLine(sw: Switch): string {
    "#define " + Name(sw) + "\n"
  }

  predicate AnyNonOpaque(materials: seq<AlphaMode>) {
    exists k :: 0 <= k < |materials| && materials[k] != Opaque
  }

  /** The scan over the scene's materials that stops at the first one that
      is not opaque. */
  method ScanMaterials(materials: seq<AlphaMode>) returns (alphaTest: bool)
    ensures alphaTest <==> AnyNonOpaque(materials)
  {
    alphaTest := false;
    var i := 0;
    while i < |materials|
      invariant 0 <= i <= |materials|
      invariant forall k :: 0 <= k < i ==> materials[k] == Opaque
    {
      if materials[i] != Opaque {
        alphaTest := true;
        break;
      }
      i := i + 1;
    }
  }

  /** The switches of the path-trace shaders, in the order their lines are
      appended. */
  function PathtraceSwitches(o: DefineInputs): seq<Switch> {
    OptionSwitches(o) + (if AnyNonOpaque(o.materials) then [AlphaTest] else [])
  }

  /** The switches taken straight from options and scene, before the
      material scan. */
  function OptionSwitches(o: DefineInputs): seq<Switch> {
    (if o.useEnvMap && o.hdrLoaded then [EnvMap] else [])
    + (if o.lightCount > 0 then [Lights] else [])
    + (if o.enableRR then [RR, RRDepth(o.rrDepth)] else [])
    + (if o.useUniformLight then [UniformLight] else [])
    + (if o.openglNormalMap then [OpenglNormalMap] else [])
    + (if o.hideEmitters then [HideEmitters] else [])
    + (if o.enableBackground then [Background] else [])
    + (if o.transparentBackground then [TransparentBackground] else [])
  }

  /** The switches of the tone-map shader. */
  function TonemapSwitches(o: DefineInputs): seq<Switch> {
    (if o.enableBackground then [Background] else [])
    + (if o.transparentBackground then [TransparentBackground] else [])
  }

  function Lines(sws: seq<Switch>): seq<string> {
    seq(|sws|, k requires 0 <= k < |sws| => DefineLine(sws[k]))
  }

  function Concat(lines: seq<string>): string {
    if |lines| == 0 then "" else lines[0] + Concat(lines[1..])
  }

  function PathtraceDefines(o: DefineInputs): string {
    Concat(Lines(PathtraceSwitches(o)))
  }

  function TonemapDefines(o: DefineInputs): string {
    Concat(Lines(TonemapSwitches(o)))
  }

  /** Number of occurrences of `x` in `xs`. */
  function Count<T(==)>(xs: seq<T>, x: T): nat {
    if |xs| == 0 then 0 else (if xs[0] == x then 1 else 0) + Count(xs[1..], x)
  }

  // ---------------------------------------------------------------------
  // Searching, as `std::string::find`
  // ---------------------------------------------------------------------

  /** A search result: `Npos` is the "not found" value of `std::string`. */
  datatype Found = Npos | At(index: nat)

  predicate MatchAt(s: string, pat: string, i: int) {
    0 <= i && i + |pat| <= |s| && s[i..i + |pat|] == pat
  }

  /** First occurrence of `pat` in `s` at or after `from`. */
  function FindFrom(s: string, pat: string, from: nat): (r: Found)
    ensures r.At? ==> from <= r.index && MatchAt(s, pat, r.index)
    ensures r.At? ==> forall j :: from <= j < r.index ==> !MatchAt(s, pat, j)
    ensures r.Npos? ==> forall j :: from <= j ==> !MatchAt(s, pat, j)
    decreases |s| - from
  {
    if from + |pat| > |s| then Npos
    else if s[from..from + |pat|] == pat then At(from)
    else FindFrom(s, pat, from + 1)
  }

  // ---------------------------------------------------------------------
  // Splicing defines after the #version line
  // ---------------------------------------------------------------------

  const Version := "#version"
  const Newline := "\n"

  /** The insertion point `idx + 1`: one past the first newline after the
      first `#version`; 1 when there is no `#version` (`idx` is set to 0);
      and 0 when `#version` has no newline after it, since `npos + 1`
      wraps to 0 in `size_t`. */
  function InsertPos(src: string): (p: nat)
    ensures p == 0 || p == 1 || (p <= |src| && src[p - 1] == '\n')
    ensures p > |src| ==> p == 1 && |src| == 0
  {
    match FindFrom(src, Version, 0)
    case Npos => 1
    case At(v) =>
      match FindFrom(src, Newline, v)
      case Npos => 0
      case At(i) => i + 1
  }

  /** Outcome of `std::string::insert`: the new text, or the
      `std::out_of_range` it throws for a position past the end. */
  datatype Spliced = Spliced(text: string) | OutOfRange

  /** Insert `defines` at the insertion point of `src`. */
  function Splice(src: string, defines: string): (r: Spliced)
    ensures r.OutOfRange? <==> |src| == 0
    ensures r.Spliced? ==> |r.text| == |src| + |defines|
    ensures r.Spliced? ==> exists p :: 0 <= p <= |src| && r.text == src[..p] + defines + src[p..]
  {
    var p := InsertPos(src);
    if p > |src| then OutOfRange else Spliced(src[..p] + defines + src[p..])
  }

  /** `out` is `src` with `defines` inserted at the `#version` insert
      point, or `src` itself when there is nothing to insert. */
  predicate SplicedAt(src: string, defines: string, out: string) {
    if |defines| > 0 then
      var p := InsertPos(src);
      p <= |src| && out == src[..p] + defines + src[p..]
    else out == src
  }

  /** Splicing happens only for a non-empty define string. */
  function SpliceIfAny(src: string, defines: string): Spliced {
    if |defines| > 0 then Splice(src, defines) else Spliced(src)
  }

  /** Removing `len` characters at `p`: the inverse of an insertion. */
  function RemoveAt(s: string, p: nat, len: nat): string
    requires p + len <= |s|
  {
    s[..p] + s[p + len..]
  }

  // ---------------------------------------------------------------------
  // Lemmas
  // ---------------------------------------------------------------------

  lemma {:induction false} CountAppend<T>(a: seq<T>, b: seq<T>, x: T)
    ensures Count(a + b, x) == Count(a, x) + Count(b, x)
  {
    if |a| > 0 {
      assert (a + b)[1..] == a[1..] + b;
      CountAppend(a[1..], b, x);
    } else {
      assert a + b == b;
    }
  }

  lemma {:induction false} CountAbsent<T>(xs: seq<T>, x: T)
    requires x !in xs
    ensures Count(xs, x) == 0
  {
    if |xs| > 0 {
      assert xs == [xs[0]] + xs[1..];
      CountAbsent(xs[1..], x);
    }
  }

  /** Equal counts for `Lines` and the switches they come from, when no
      other switch shares the line of `sw`. */
  lemma {:induction false} CountLines(sws: seq<Switch>, sw: Switch)
    requires forall k :: 0 <= k < |sws| ==> (DefineLine(sws[k]) == DefineLine(sw) ==> sws[k] == sw)
    ensures Count(Lines(sws), DefineLine(sw)) == Count(sws, sw)
  {
    if |sws| > 0 {
      var ls, rest := Lines(sws), Lines(sws[1..]);
      assert |ls[1..]| == |rest| && forall k :: 0 <= k < |rest| ==> ls[1..][k] == rest[k];
      assert ls[1..] == rest;
      assert ls[0] == DefineLine(sws[0]);
      CountLines(sws[1..], sw);
    }
  }

  /** A text line: it ends in a newline and holds no other. */
  predicate NewlineTerminated(l: string) {
    |l| >= 1 && l[|l| - 1] == '\n' && '\n' !in l[..|l| - 1]
  }

  /** Macro names never hold a newline, and only `AlphaTest` is named
      `OPT_ALPHA_TEST`. */
  lemma NameFacts(sw: Switch)
    ensures '\n' !in Name(sw)
    ensures Name(sw) == "OPT_ALPHA_TEST" ==> sw == AlphaTest
  {
    if sw.RRDepth? {
      var digits := IntToString(sw.depth);
      IntToStringRoundTrip(sw.depth);
      var n := Name(sw);
      assert n == "OPT_RR_DEPTH " + digits;
      forall k | 0 <= k < |digits|
        ensures digits[k] != '\n'
      {
        if digits[0] == '-' && k > 0 {
          assert digits[k] == digits[1..][k - 1];
        }
      }
      assert n[4] == 'R';
    }
  }

  /** Every define line is one line of text, starting `#define OPT_`. */
  lemma DefineLineShape(sw: Switch)
    ensures NewlineTerminated(DefineLine(sw))
    ensures DefineLine(sw)[..8] == "#define "
    ensures DefineLine(sw) == DefineLine(AlphaTest) ==> sw == AlphaTest
  {
    NameFacts(sw);
    var l := DefineLine(sw);
    assert l[..|l| - 1] == "#define " + Name(sw);
    if l == DefineLine(AlphaTest) {
      assert Name(sw) == l[8..|l| - 1] == "OPT_ALPHA_TEST";
    }
  }

  /** The define text is empty exactly when no switch is on, which is the
      test that decides whether shader source is edited at all. */
  lemma {:induction false} PathtraceDefinesEmptyIff(o: DefineInputs)
    ensures |PathtraceDefines(o)| == 0 <==>
      !(o.useEnvMap && o.hdrLoaded) && o.lightCount == 0 && !o.enableRR
      && !o.useUniformLight && !o.openglNormalMap && !o.hideEmitters
      && !o.enableBackground && !o.transparentBackground && !AnyNonOpaque(o.materials)
  {
    var sws := PathtraceSwitches(o);
    if |sws| > 0 {
      var ls := Lines(sws);
      assert Concat(ls) == ls[0] + Concat(ls[1..]);
      DefineLineShape(sws[0]);
    }
  }

  /** `OPT_ALPHA_TEST` is defined once when some material is not opaque and
      not at all otherwise, however many such materials there are. */
  lemma {:induction false} AlphaTestAtMostOnce(o: DefineInputs)
    ensures Count(Lines(PathtraceSwitches(o)), DefineLine(AlphaTest))
      == if AnyNonOpaque(o.materials) then 1 else 0
  {
    var front := OptionSwitches(o);
    var back := if AnyNonOpaque(o.materials) then [AlphaTest] else [];
    var sws := PathtraceSwitches(o);
    assert AlphaTest !in front;
    CountAbsent(front, AlphaTest);
    CountAppend(front, back, AlphaTest);
    forall k | 0 <= k < |sws|
      ensures DefineLine(sws[k]) == DefineLine(AlphaTest) ==> sws[k] == AlphaTest
    {
      DefineLineShape(sws[k]);
    }
    CountLines(sws, AlphaTest);
  }

  /** The tone-map shader only ever gets the two background switches, each
      exactly when its option is on, and each is also a path-trace switch. */
  lemma TonemapOnlyBackground(o: DefineInputs)
    ensures forall sw :: sw in TonemapSwitches(o) ==> sw == Background || sw == TransparentBackground
    ensures Background in TonemapSwitches(o) <==> o.enableBackground
    ensures TransparentBackground in TonemapSwitches(o) <==> o.transparentBackground
    ensures forall sw :: sw in TonemapSwitches(o) ==> sw in PathtraceSwitches(o)
  {
  }

  /** Cut a text after each newline; a trailing piece without newline is a
      line of its own. */
  function SplitLines(s: string): seq<string>
    decreases |s|
  {
    if |s| == 0 then []
    else
      match FindFrom(s, Newline, 0)
      case Npos => [s]
      case At(i) => [s[..i + 1]] + SplitLines(s[i + 1..])
  }

  /** The first newline of a text that starts with the line `l`. */
  lemma {:induction false} FirstNewline(l: string, rest: string)
    requires NewlineTerminated(l)
    ensures FindFrom(l + rest, Newline, 0) == At(|l| - 1)
  {
    var s := l + rest;
    assert s[|l| - 1..|l|] == [l[|l| - 1]];
    assert MatchAt(s, Newline, |l| - 1);
    forall j | 0 <= j < |l| - 1
      ensures !MatchAt(s, Newline, j)
    {
      assert s[j..j + 1] == [l[..|l| - 1][j]];
    }
  }

  /** Cutting the define text at its newlines gives back its lines: the
      text is exactly those directives, one per line. */
  lemma {:induction false} SplitConcat(lines: seq<string>)
    requires forall k :: 0 <= k < |lines| ==> NewlineTerminated(lines[k])
    ensures SplitLines(Concat(lines)) == lines
  {
    if |lines| > 0 {
      var l := lines[0];
      var s := Concat(lines);
      assert s == l + Concat(lines[1..]);
      FirstNewline(l, Concat(lines[1..]));
      assert s[..|l|] == l;
      assert s[|l|..] == Concat(lines[1..]);
      SplitConcat(lines[1..]);
    }
  }

  /** The path-trace define text reads back, line by line, as the define
      directives of the enabled switches. */
  lemma PathtraceDefinesAreLines(o: DefineInputs)
    ensures SplitLines(PathtraceDefines(o)) == Lines(PathtraceSwitches(o))
  {
    var sws := PathtraceSwitches(o);
    forall k | 0 <= k < |sws|
      ensures NewlineTerminated(Lines(sws)[k])
    {
      DefineLineShape(sws[k]);
    }
    SplitConcat(Lines(sws));
  }

  /** The splice is undone by removing the define text again. */
  lemma SpliceRoundTrip(src: string, defines: string)
    requires |src| > 0
    ensures var p := InsertPos(src);
      && p <= |src|
      && Splice(src, defines).Spliced?
      && RemoveAt(Splice(src, defines).text, p, |defines|) == src
  {
    var p := InsertPos(src);
    var t := src[..p] + defines + src[p..];
    assert t[..p] == src[..p];
    assert t[p + |defines|..] == src[p..];
    assert src[..p] + src[p..] == src;
  }

  /** The first match of `pat` is where no earlier one is. */
  lemma FindFirst(s: string, pat: string, v: nat)
    requires MatchAt(s, pat, v) && forall j :: 0 <= j < v ==> !MatchAt(s, pat, j)
    ensures FindFrom(s, pat, 0) == At(v)
  {
  }

  /** The newline search from `v` stops at `i`. */
  lemma NewlineAt(src: string, v: nat, i: nat)
    requires v <= i < |src| && src[i] == '\n'
    requires forall j :: v <= j < i ==> src[j] != '\n'
    ensures FindFrom(src, Newline, v) == At(i)
  {
    forall j | v <= j < i
      ensures !MatchAt(src, Newline, j)
    {
      assert src[j..j + 1][0] == src[j];
    }
    assert src[i..i + 1] == [src[i]];
    assert MatchAt(src, Newline, i);
  }

  /** The newline ending the `#version` line lies past the directive. */
  lemma NewlinePastVersion(src: string, v: nat, i: nat)
    requires MatchAt(src, Version, v)
    requires v <= i < |src| && src[i] == '\n'
    ensures i >= v + |Version|
  {
    forall j | v <= j < v + |Version|
      ensures src[j] != '\n'
    {
      assert src[j] == src[v..v + |Version|][j - v];
    }
  }

  /** With a `#version` directive followed by a newline, the defines go on
      the line right after it: the text up to and including that newline is
      unchanged, the rest of the source follows the defines, and the first
      `#version` of the result is still the original one. */
  lemma {:induction false} SpliceAfterVersionLine(src: string, defines: string, v: nat, i: nat)
    requires MatchAt(src, Version, v) && forall j :: 0 <= j < v ==> !MatchAt(src, Version, j)
    requires v <= i < |src| && src[i] == '\n'
    requires forall j :: v <= j < i ==> src[j] != '\n'
    ensures Splice(src, defines) == Spliced(src[..i + 1] + defines + src[i + 1..])
    ensures i + 1 >= v + |Version|
    ensures FindFrom(Splice(src, defines).text, Version, 0) == At(v)
  {
    assert InsertPos(src) == i + 1 by {
      FindFirst(src, Version, v);
      NewlineAt(src, v, i);
    }
    NewlinePastVersion(src, v, i);
    var t := src[..i + 1] + defines + src[i + 1..];
    assert t[..i + 1] == src[..i + 1];
    VersionStaysFirst(src, t, v, i + 1);
  }

  /** Text that keeps the source's first `p` characters, which include
      its first `#version`, still finds that `#version` first. */
  lemma VersionStaysFirst(src: string, t: string, v: nat, p: nat)
    requires MatchAt(src, Version, v) && forall j :: 0 <= j < v ==> !MatchAt(src, Version, j)
    requires v + |Version| <= p <= |src| && p <= |t| && t[..p] == src[..p]
    ensures FindFrom(t, Version, 0) == At(v)
  {
    SamePrefixSlice(src, t, p, v, |Version|);
    forall j | 0 <= j < v
      ensures !MatchAt(t, Version, j)
    {
      assert !MatchAt(src, Version, j);
      SamePrefixSlice(src, t, p, j, |Version|);
    }
    FindFirst(t, Version, v);
  }

  /** Texts that agree on their first `p` characters agree on every slice
      inside them. */
  lemma SamePrefixSlice(a: string, b: string, p: nat, j: nat, len: nat)
    requires p <= |a| && p <= |b| && a[..p] == b[..p] && j + len <= p
    ensures a[j..j + len] == b[j..j + len]
  {
    var x, y := a[j..j + len], b[j..j + len];
    forall m | 0 <= m < len
      ensures x[m] == y[m]
    {
      assert a[j + m] == a[..p][j + m] == b[..p][j + m] == b[j + m];
    }
    assert x == y;
  }

  /** Without any `#version` the defines land after the first character. */
  lemma SpliceWithoutVersion(src: string, defines: string)
    requires |src| > 0 && forall j :: !MatchAt(src, Version, j)
    ensures Splice(src, defines) == Spliced(src[..1] + defines + src[1..])
  {
    assert FindFrom(src, Version, 0) == Npos;
  }

  /** A `#version` with no newline after it puts the defines in front of
      the whole source. */
  lemma SpliceVersionWithoutNewline(src: string, defines: string, v: nat)
    requires MatchAt(src, Version, v) && forall j :: 0 <= j < v ==> !MatchAt(src, Version, j)
    requires forall j :: v <= j < |src| ==> src[j] != '\n'
    ensures Splice(src, defines) == Spliced(defines + src)
  {
    FindFirst(src, Version, v);
    forall j | v <= j && j + 1 <= |src|
      ensures !MatchAt(src, Newline, j)
    {
      assert src[j..j + 1][0] == src[j];
    }
    assert FindFrom(src, Newline, v) == Npos;
  }
}

=== FILE: ticks.dfy ===
/** Properties of single scheduler calls: what one clean or dirty `Update`
    does, the denoise gate, the convergence gate, and the images `Render`
    writes and `Present` / `GetOutputBuffer` read. */
module Ticks {
  import opened Grid
  import opened Scheduler

  /** A clean tick moves the cursor one step along the raster order; the
      step off the last tile wraps to the first one, and that wrap alone
      bumps the sample counter and flips the write half. The frame counter
      goes up by one on every clean tick. */
  lemma CleanTickLaw(s: State, opts: RenderOptions)
    requires Valid(s) && !Converged(s, false, opts) && CadenceDefined(s, false, opts)
    ensures var t := Update(s, false, opts);
      var n := s.numTiles;
      var i := RasterIndex(s.tile, n);
      var wrap := i == TileCount(n) - 1;
      && InGrid(t.state.tile, n)
      && RasterIndex(t.state.tile, n) == (if wrap then 0 else i + 1)
      && t.state.frameCounter == s.frameCounter + 1
      && t.state.sampleCounter == s.sampleCounter + (if wrap then 1 else 0)
      && t.state.currentBuffer == (if wrap then 1 - s.currentBuffer else s.currentBuffer)
      && (wrap ==> t.state.tile == First(n))
      && !t.accumCleared
      && t.uniforms == Uniforms(opts.maxDepth, opts.maxDepth, t.state.frameCounter, t.state.tile)
  {
    AdvanceIndex(s.tile, s.numTiles);
  }

  /** A dirty tick resets cursor, counters and the denoised flag, keeps
      everything else (the write half included), clears the accumulation
      image and asks the preview for depth 2. */
  lemma DirtyReset(s: State, opts: RenderOptions)
    requires s.initialized && CadenceDefined(s, true, opts)
    ensures var t := Update(s, true, opts);
      && t.state == s.(tile := Sentinel(s.numTiles), sampleCounter := 1, frameCounter := 1, denoised := false)
      && t.accumCleared
      && t.uniforms == Uniforms(opts.maxDepth, 2, 1, Sentinel(s.numTiles))
  {
  }

  /** Dirty ticks in a row: the second changes nothing and does not run
      the denoiser. */
  lemma DirtyIdempotent(s: State, opts: RenderOptions)
    requires s.initialized && CadenceDefined(s, true, opts)
    ensures var once := Update(s, true, opts).state;
      && CadenceDefined(once, true, opts)
      && Update(once, true, opts).state == once
      && !Update(once, true, opts).denoiseFired
  {
  }

  /** The denoise gate: it fires when the denoiser is on, a complete pass
      exists, and either nothing is denoised yet or the frame counter is a
      multiple of the cadence. After the tick the denoised flag is set
      exactly on clean ticks with the denoiser on and a complete pass. */
  lemma DenoiseGateLaw(s: State, dirty: bool, opts: RenderOptions)
    requires s.initialized && CadenceDefined(s, dirty, opts) && !Converged(s, dirty, opts)
    ensures var t := Update(s, dirty, opts);
      && (t.denoiseFired <==>
            opts.enableDenoiser && s.sampleCounter > 1
            && (!s.denoised || s.frameCounter % Cadence(s, opts) == 0))
      && (t.state.denoised <==> !dirty && opts.enableDenoiser && s.sampleCounter > 1)
  {
  }

  /** The gate runs before the reset, so a dirty tick can still invoke the
      denoiser, whose result the reset then discards. */
  lemma DirtyTickMayDenoise(s: State, opts: RenderOptions)
    requires s.initialized && opts.enableDenoiser && s.sampleCounter > 1 && !s.denoised
    ensures Update(s, true, opts).denoiseFired
    ensures !Update(s, true, opts).state.denoised
  {
  }

  /** Once converged, a clean tick changes nothing and draws nothing. */
  lemma ConvergedTickIsNoOp(s: State, opts: RenderOptions)
    requires s.initialized && Converged(s, false, opts)
    ensures Update(s, false, opts) == Tick(s, false, false, Kept)
    ensures Render(s, false, opts) == RenderOutcome(false, NoPass)
  {
  }

  /** A limit of 1 or below (other than -1) means converged from the start:
      the sample counter is never below 1. */
  lemma SmallLimitConverged(s: State, opts: RenderOptions)
    requires Valid(s) && opts.maxSpp != -1 && opts.maxSpp <= 1
    ensures Converged(s, false, opts)
  {
  }

  /** With a positive limit the sample counter stops exactly at it. */
  lemma SampleCounterStaysBelowLimit(s: State, dirty: bool, opts: RenderOptions)
    requires Valid(s) && CadenceDefined(s, dirty, opts)
    requires opts.maxSpp >= 1 && s.sampleCounter <= opts.maxSpp
    ensures Update(s, dirty, opts).state.sampleCounter <= opts.maxSpp
    ensures GetProgress(Update(s, dirty, opts).state, opts) <= 100.0
  {
    if !dirty && !Converged(s, false, opts) {
      CleanTickLaw(s, opts);
    }
  }

  /** The frame's tile pass after a clean `Update`: it runs unless the tick
      reached the limit, it merges into a viewport inside the tiled extent
      of the current cursor tile, and it writes the half `Present` does
      not show. */
  lemma UpdateThenRender(s: State, opts: RenderOptions)
    requires Valid(s) && !Converged(s, false, opts) && CadenceDefined(s, false, opts)
    ensures var t := Update(s, false, opts).state;
      var r := Render(t, false, opts);
      && (r.pass.TilePass? <==> !Converged(t, false, opts))
      && (r.pass.TilePass? ==>
            && r.pass.accumViewport == Viewport(t.tile, t.tileSize)
            && InGrid(t.tile, t.numTiles)
            && 0 <= r.pass.accumViewport.x
            && r.pass.accumViewport.x + r.pass.accumViewport.width <= t.numTiles.x * t.tileSize.x
            && 0 <= r.pass.accumViewport.y
            && r.pass.accumViewport.y + r.pass.accumViewport.height <= t.numTiles.y * t.tileSize.y
            && r.pass.traceViewport == Rect(0, 0, t.tileSize.x, t.tileSize.y)
            && r.pass.outputViewport == Rect(0, 0, t.renderSize.x, t.renderSize.y)
            && Present(t, r.dirty, opts) != TileOutput(r.pass.target)
            && GetOutputBuffer(t, opts).source != TileOutput(r.pass.target))
  {
    CleanTickLaw(s, opts);
    var t := Update(s, false, opts).state;
    ViewportInsideGrid(t.tile, t.renderSize, t.tileSize);
  }

  /** Whatever `Render` draws into, neither `Present` nor `GetOutputBuffer`
      reads that half of the output store, before or after the call. */
  lemma NeverShowsWriteHalf(s: State, dirty: bool, opts: RenderOptions)
    requires Valid(s)
    ensures var r := Render(s, dirty, opts);
      r.pass.TilePass? ==>
        && Present(s, dirty, opts) != TileOutput(r.pass.target)
        && Present(s, r.dirty, opts) != TileOutput(r.pass.target)
        && GetOutputBuffer(s, opts).source != TileOutput(r.pass.target)
  {
  }

  /** Read-back follows `Present` whenever `Present` does not show the
      preview. */
  lemma OutputBufferMatchesPresent(s: State, dirty: bool, opts: RenderOptions)
    requires s.initialized && Present(s, dirty, opts) != LowResPreview
    ensures GetOutputBuffer(s, opts).source == Present(s, dirty, opts)
  {
  }

  /** After `Render` on an initialised renderer the scene is clean, and a
      dirty frame always gets its preview. */
  lemma RenderConsumesDirty(s: State, opts: RenderOptions)
    requires s.initialized
    ensures Render(s, true, opts) == RenderOutcome(false, PreviewPass)
    ensures !Render(s, false, opts).dirty
  {
  }

  /** Calling `Init` a second time changes nothing. */
  lemma InitIdempotent(s: State, opts: RenderOptions, scene: SceneInfo, src: ShaderSources)
    requires !s.initialized ==> s.renderSize.x >= 0 && s.renderSize.y >= 0
    requires !s.initialized ==> s.tileSize.x >= 1 && s.tileSize.y >= 1
    requires Init(s, opts, scene, src).Ready?
    ensures Init(Init(s, opts, scene, src).state, opts, scene, src) == AlreadyInitialized
  {
  }

  /** A constructed renderer with a non-empty target and positive tiles
      initialises into a valid state whose grid covers the target, with
      one tile per axis where the tile is at least as large as the target. */
  lemma ConstructThenInit(opts: RenderOptions, renderSize: Vec2, frame: int,
                          scene: SceneInfo, src: ShaderSources)
    requires renderSize.x >= 1 && renderSize.y >= 1
    requires opts.tileWidth >= 1 && opts.tileHeight >= 1
    requires |src.tile| > 0 && |src.preview| > 0 && |src.tonemap| > 0
    ensures var r := Init(Construct(opts, renderSize, frame), opts, scene, src);
      && r.Ready?
      && Valid(r.state)
      && !r.state.denoised
      && r.state.numTiles.x * opts.tileWidth >= renderSize.x
      && r.state.numTiles.y * opts.tileHeight >= renderSize.y
      && (renderSize.x <= opts.tileWidth ==> r.state.numTiles.x == 1)
      && (renderSize.y <= opts.tileHeight ==> r.state.numTiles.y == 1)
  {
    NumTilesShape(renderSize, Vec2(opts.tileWidth, opts.tileHeight));
  }
}
